=== FILE: README.md ===
# Federated averaging over TCP: a Dafny model

The system trains one small neural network (17-64-32-1) on several machines
at once. A C++ coordinator (`server.cpp`) accepts one TCP connection per
client. It gives each client an id, the number of epochs and the name of its
training partition, then starts the run. In every epoch each client (`client.py`)
sends the weight matrix of each of the three layers as an `M` packet. One
worker thread per connection reads these packets. When the last contribution
for a layer arrives, that thread averages the layer element-wise and sends the
average to every client as an `m` packet. At the end the coordinator sends
`x`; after a failure during training it sends `z`. The byte layer (`tcp.cpp`) frames every
packet with an ASCII header: ten zero-padded decimal digits giving the payload
length, one type byte and, for `M` and `m`, one layer digit. It reads and
writes with `receive_exact` and `send_all`.

The model is split into these modules:

- `Decimal` (decimal.dfy) is decimal text:
  - `std::to_string`;
  - the `setw(10) << setfill('0')` field;
  - `std::stoi` with its whitespace, sign, digit-prefix and 32-bit range rules;
  - Python's `int()` on bytes.
- `Frame` (frame.dfy) holds the header encoders:
  - both `make_header` overloads of `tcp.cpp`;
  - the always-12-byte overload of `server.cpp`;
  - the client's `make_hdr`.

  It also proves what each peer decodes from a header.
- `Doubles` (doubles.dfy) is the native 8-byte layout of a double. It is a
  parameter (`Layout(encode, decode)`), because the host's byte order is not
  fixed by the program.
- `Channel` (channel.dfy) is a TCP connection as a class with its pending
  input, delivered output, remaining capacity and open flag.
  - `recv` and `send` may move any non-empty chunk.
  - `ReceiveExact` keeps `tcp.cpp`'s loop over an array buffer.
  - `SendAll` keeps its `p`/`left` loop.
- `Barrier` (barrier.dfy) is the shared per-layer buffers `buf[3]`:
  - deposit and the "am I last" test;
  - the element-wise average;
  - clearing.

  It also proves that the average does not depend on the order in which the
  threads arrived.
- `Server` (server.dfy) is the coordinator:
  - `send_raw`/`send_vecd`;
  - the accept and handshake loop;
  - the setup broadcast;
  - the worker thread's checks;
  - the rounds;
  - the final `x`/`z`.

  The functions `ParseContribution` and `Schedule` specify, on pure byte
  strings, what one worker step and a whole run of rounds read and compute.
  The methods are proved against them.
- `Client` (client.dfy) holds the client's `recv_pkt`, its handshake script and
  its per-layer synchronisation, as parsers on the byte stream plus methods
  that drive a connection.
- `Protocol` (protocol.dfy) puts the two peers against each other:
  - what the coordinator writes, the client reads back as intended;
  - what the client writes passes the worker's checks;
  - a whole session (setup, one average per layer per epoch, then `x`) is
    read by the client as exactly the id, epoch count, file name and
    averages.

Threads are sequentialised. One round (one layer of one epoch) is modelled as
every worker depositing, in a caller-supplied arrival order (any permutation),
followed by the last depositor's average, broadcast and clear. In the source
the completing thread is the one whose deposit filled the buffer. This gives
the same bytes on every connection as the threaded program for clients that
wait for each average before sending their next `M`, as `client.py` does.
Nothing in the source enforces one contribution per client per round: after
depositing, a worker goes straight back to its next header read
(server.cpp:168-199). A client that sends ahead can therefore make its worker
deposit twice into one layer's buffer, or into the next round's buffer before
that round has opened. The sequential model cannot produce that interleaving.

Behaviour of the code worth knowing:

- **Oversized lengths.** `setw(10)` is a minimum width. A length of 10^10 or
  more gives a longer header rather than an error (`Frame.HeaderOverflow`).
- **Lenient length fields.** The server parses length fields with `std::stoi`.
  It accepts leading blanks, a sign and trailing garbage, so the handshake
  check is "stoi gives 0 and the type is `I`" and not a literal comparison
  with `0000000000I`.
- **Payload size.** The worker never checks that the announced payload length
  equals eight bytes per element. Shorter payloads are zero-filled by the
  memcpy into a zero-initialised vector, and the model does the same. Longer
  ones overrun the vector (see Findings); the model refuses them, as said
  under Left out.
- **Layer byte.** `tcp.cpp`'s three-argument `make_header` writes the layer
  byte only when it is not `'\0'`. `server.cpp`'s version always writes it.

## Model

| member | source | states |
|---|---|---|
| Decimal.ToString | server.cpp:278 | `std::to_string` of a natural number: digits only, no leading zero, and its decimal value is the number |
| Decimal.IntToString | server.cpp:291 | `std::to_string` of a signed int: a minus sign before the spelling of the magnitude when negative, the plain spelling otherwise |
| Decimal.ToStringLength | tcp.cpp:26 | a number's spelling fits in k digits exactly when it is below 10^k |
| Decimal.Pad10 | tcp.cpp:26 | the `setw(10) << setfill('0')` field: the decimal spelling of the number, padded on the left with `0` to ten characters and never truncated |
| Decimal.Pad10Field | tcp.cpp:26 | below 10^10 the zero-padded field is exactly ten digits whose value is the number; from 10^10 on it is the unpadded spelling and longer than ten |
| Decimal.Pad10Injective | tcp.cpp:26 | two lengths below 10^10 give the same ten-digit field exactly when they are equal |
| Decimal.ValueZeroIffZeros | server.cpp:271-273 | a digit string has value 0 exactly when it is all zeros |
| Decimal.Stoi | server.cpp:176 | `std::stoi`: leading whitespace is skipped, then an optional sign and the longest run of digits are read and the rest is ignored; no digit is invalid_argument and a value outside int is out_of_range |
| Decimal.PyInt | client.py:27 | Python `int()` on text: surrounding whitespace is stripped, then an optional sign and at least one digit must make up all that is left, otherwise it raises ValueError |
| Decimal.StoiOfDigits | server.cpp:176 | `stoi` of a non-empty digit string is its value when that fits an int and out_of_range otherwise |
| Decimal.PyIntOfDigits | client.py:27 | Python `int()` of a non-empty digit string is its value |
| Decimal.PyIntOfNegative | client.py:88 | Python `int()` of a minus sign followed by digits is the negated value |
| Decimal.PyIntOfIntToString | client.py:88 | `int()` reads the server's `to_string` of any integer, negative ones included, back as that integer |
| Frame.LayerDigit | server.cpp:183 | the layer byte `'0' + lid` is a digit and is the one-character `str(lid)` the client writes |
| Frame.MakeHeader | server.cpp:62-68 | the 11-byte header of `server.cpp` and `tcp.cpp`: the ten-digit length field, then the type byte |
| Frame.MakeHeaderLayer | tcp.cpp:23-30 | `tcp.cpp`'s three-argument header: the length field, the type, and then the layer byte only when it is not `'\0'` |
| Frame.MakeHeader12 | server.cpp:71-77 | `server.cpp`'s 12-byte header: the length field, the type and the layer byte, always |
| Frame.MakeHdr | client.py:16-17 | the client's `make_hdr`: the length zero-padded to ten digits, the type text, then the layer text when one is given |
| Frame.HeaderLength | tcp.cpp:23-30 | headers are 11 bytes, or 12 with a layer byte; `tcp.cpp`'s three-argument form is 11 bytes when the layer is `'\0'` |
| Frame.HeaderOverflow | tcp.cpp:33-39 | a payload length of 10^10 or more gives a header longer than 11 bytes whose eleventh byte is a digit, not the type |
| Frame.HeaderFields | server.cpp:71-77 | a 12-byte header is ten digits with the length's value, then the type, then the layer; its first 11 bytes are the 11-byte header |
| Frame.ServerDecodesHeader | server.cpp:176-177 | `stoi` of a header's first ten bytes gives the length (out_of_range above INT_MAX) and byte ten is the type |
| Frame.ClientDecodesHeader | client.py:25-27 | `int(h[:10])` gives the length and `h[10:11]` the type, for every length below 10^10 |
| Frame.EncodersAgree | client.py:16-17 | the client's `make_hdr` produces the same bytes as the server's encoders, with and without a layer |
| Frame.HeaderInjective | server.cpp:62-68 | distinct (length, type) pairs below 10^10 give distinct headers |
| Frame.ToStringOfValue | server.cpp:278 | a canonical digit string is the `to_string` of its value |
| Frame.EncodeDecodedHeader | server.cpp:62-68 | an 11-byte header with a digit length field is re-encoded exactly from the length and type it decodes to |
| Doubles.Pack | server.cpp:98-102 | the raw bytes of a vector of doubles are eight per element |
| Doubles.PackBlock | server.cpp:100-102 | the bytes of element i are its 8-byte encoding at offset 8i |
| Doubles.Unpack | server.cpp:188-189 | copying a byte payload into a zero-initialised vector of `count` doubles gives exactly `count` values |
| Doubles.UnpackPack | client.py:146 | `frombuffer` of `tobytes` (or the memcpy of the vector's bytes) gives the vector back when the layout round-trips |
| Channel.Conn.Recv | tcp.cpp:51 | `recv` delivers a non-empty prefix of the pending input of at most `max` bytes into the buffer at the offset, or reports the end of the stream |
| Channel.Conn.Send | tcp.cpp:68 | `send` accepts a non-empty prefix of at most `len` bytes, or fails when the descriptor is closed or the peer accepts nothing |
| Channel.Conn.Close | server.cpp:315 | closing a descriptor leaves it closed |
| Channel.ReceiveExact | tcp.cpp:46-56 | either exactly the next n input bytes, assembled from the non-empty chunks `recv` gave, or ConnectionClosed with the stream exhausted; never a short buffer |
| Channel.SendAll | tcp.cpp:63-73 | succeeds exactly when the connection is open with room for every byte, and then delivers all of them in order; on failure only a proper prefix was delivered |
| Server.PacketLengths | server.cpp:79-104 | a `send_raw` packet is 11 bytes plus the payload, a `send_vecd` packet 12 bytes plus eight per double |
| Server.RawPacket | server.cpp:79-92 | `send_raw`'s packet: the 11-byte header announcing the payload's length, then the payload |
| Server.VecPacket | server.cpp:95-104 | `send_vecd`'s packet: the 12-byte header announcing eight bytes per double, then the vector's raw bytes |
| Server.IdPacket | server.cpp:278-279 | the reply to the i-th accepted connection: an `i` packet carrying `to_string(i)` |
| Server.PartitionFile | server.cpp:295 | client idx's training file: `part`, the decimal idx, then `.csv` |
| Server.Setup3 | server.cpp:290-299 | the three setup packets in order: `e` carrying the epoch text, `f` carrying the file name, then an empty `s` |
| Server.AveragePacketLength | server.cpp:213-217 | the `m` packet for layer lid has the fixed length 12 + 8·ELEM[lid] |
| Server.SendRaw | server.cpp:79-92 | the connection receives the 11-byte header and the payload, exactly when it can take them; whatever the outcome, its capacity shrinks by no more than the packet |
| Server.SendVecd | server.cpp:95-104 | the connection receives the 12-byte header and the vector's raw bytes, exactly when it can take them |
| Server.HandshakeOk | server.cpp:263-274 | what `main` accepts as a hello: eleven bytes whose first ten `stoi` reads as 0 and whose eleventh is `I` |
| Server.SetupPackets | server.cpp:290-299 | client idx's setup: `e` carrying `to_string(N_EPOCHS)`, `f` carrying `part<idx>.csv`, then an empty `s` |
| Server.SendSetup | server.cpp:290-299 | the client receives `e` (epoch count), `f` (file name) and `s`, in that order, exactly when it can take all three |
| Server.Greet | server.cpp:263-279 | the 11-byte hello is consumed, and the id packet is sent, exactly when the header passes the `I`/`stoi == 0` check and the connection takes the reply |
| Server.PassesChecks | server.cpp:173-189 | every check the worker makes before its memcpy: a full header whose length field `stoi` reads, type `M`, the layer digit `'0'+lid`, a length that is not negative and that many payload bytes; nothing bounds the length by the vector's size |
| Server.ParseLayerPayload | server.cpp:182-189 | after the header, the worker accepts exactly the layer digit `'0'+lid` followed by a payload of at most 8·ELEM[lid] bytes, and consumes 1 + sz bytes |
| Server.ParseContribution | server.cpp:173-189 | one worker step succeeds exactly when the header passes every source check and the payload fits the layer's vector; it yields ELEM[lid] doubles and consumes header, layer byte and payload |
| Server.OverrunPassesChecks | server.cpp:187-189 | an `M` packet announcing more than 8·ELEM[lid] bytes, with no more than `stoi` reads, passes every check the source makes, and the corrected parser rejects it |
| Server.ReceiveLayerPayload | server.cpp:182-189 | reading the layer byte and payload from a connection returns what `ParseLayerPayload` says, consuming exactly those bytes |
| Server.ReceiveContribution | server.cpp:171-189 | one worker step on a connection returns what `ParseContribution` says of its pending input, consuming exactly those bytes |
| Server.Contributions | server.cpp:186-189 | every client's contribution to a round has the layer's element count |
| Server.Count | server.cpp:258 | how many times `for (int i = 0; i < n; ++i)` runs (also server.cpp:168 and 286): n when positive, none for a zero or negative n read from standard input |
| Server.Schedule | server.cpp:168-221 | after r rounds there are r averages, round t's having ELEM[t % 3] elements, and one remaining stream per client |
| Server.Handshake | server.cpp:258-283 | the loop succeeds exactly when every connection's first 11 bytes pass the hello check and it accepts its id; then connection k has consumed its hello and received id k |
| Server.SetupAll | server.cpp:286-300 | the loop succeeds exactly when every client accepts its three setup packets; then client k has received the epoch count, `part<k>.csv` and `s` |
| Server.BroadcastAverage | server.cpp:216-217 | every connection receives the same `m` packet for the layer, exactly when each can take it |
| Server.Farewell | server.cpp:312-316 | every connection receives the 11-byte end packet and is closed, exactly when each can take it |
| Server.Complete | server.cpp:203-221 | the completer sends every client the element-wise mean of the full buffer as an `m` packet and empties that layer's buffer |
| Server.MeanOfArrivals | server.cpp:194-210 | when every worker's step succeeded in some arrival order, the mean of the buffer as filled equals the mean of the contributions in connection order |
| Server.Arrive | server.cpp:171-199 | one worker reads its contribution from its own connection only and, when it is accepted, appends it to its layer's buffer, `listo` telling whether that filled the buffer; a refused one leaves the buffers untouched; no connection's output changes |
| Server.TakeTurn | server.cpp:171-199 | one worker's turn in arrival order: a refused contribution means some stream does not parse and leaves the buffers untouched; an accepted one is that worker's parsed contribution, appended to the layer's buffer, its stream advanced past it and `listo` set exactly on the last arrival; no connection's output changes |
| Server.TakeTurns | server.cpp:168-200 | the turns of a round up to the first refusal: failure means some stream does not parse; success leaves every worker's contribution in the buffer in arrival order, each stream just past its own, and `listo` set; no connection's output changes |
| Server.Collect | server.cpp:194-200 | all workers deposit in the given arrival order; this succeeds exactly when every contribution parses, and then the last deposit fills the buffer, every stream is left after its packet and the buffer's mean is the mean of the contributions |
| Server.RunRound | server.cpp:169-221 | one round succeeds exactly when every contribution parses and every client takes the reply; then every client receives the mean of the contributions and the buffers are empty again |
| Server.ScheduleStep | server.cpp:168-221 | a successful round extends the schedule by the average of that round's contributions, and the broadcast bytes by its `m` packet |
| Server.AveragePackets | server.cpp:216-217 | what every client receives over successive rounds: round t's average as an `m` packet with layer byte `'0' + t % 3`, in round order |
| Server.AveragePacketsLength | server.cpp:213-217 | the `m` packets of a schedule's averages take exactly RoundsBytes of its rounds, 12 + 8·ELEM[t % 3] bytes for round t |
| Server.ScheduleStaysRefused | server.cpp:166-233 | once the schedule is undefined after some round, it stays undefined for every longer run |
| Server.RefusedRound | server.cpp:166-233 | a round in which some worker's contribution is refused leaves the schedule of every longer run undefined: no later round completes |
| Server.NextRound | server.cpp:169-221 | round r succeeds exactly when every stream's next contribution parses and every client is open with room for this round's `m` packet after the earlier rounds' ones; then every connection's output is the packets of the schedule's averages so far, its input the schedule's streams, and those packets have used its capacity |
| Server.Rounds | server.cpp:168-223 | the rounds succeed exactly when the schedule is defined for all of them and every client is open (if there is a round) with room for all their `m` packets; then every client has received the `m` packets of all the averages, in order, and its capacity shrank by exactly their size; whatever the outcome, no capacity shrank by more than that |
| Server.Coordinator.constructor | server.cpp:33-37 | the coordinator starts with no registered sockets and the abort flag clear |
| Server.Coordinator.AcceptAll | server.cpp:258-283 | accepting N clients registers them in order exactly when every hello passes and every id is delivered |
| Server.Coordinator.Prepare | server.cpp:257-300 | setup succeeds exactly when every hello is valid and every client is open with room for its id and its three setup packets; then every hello was consumed and client k has received its id and then its setup packets |
| Server.Coordinator.Train | server.cpp:302-307 | the abort flag stays clear exactly when the schedule is defined for every round and every client takes every average; then every client has received every average of the schedule; after an abort too, no client's capacity shrank by more than all the averages' bytes |
| Server.Coordinator.Finish | server.cpp:308-318 | after the join, every client receives `z` if the abort flag is set and `x` otherwise, and every connection is closed; the exit is a success exactly when every connection took the packet and the flag is clear |
| Server.Coordinator.Serve | server.cpp:302-318 | the end is a success exactly when the schedule is defined and every client is open with room for every average and the final `x`; then every client has received every average and `x`; a failed end has closed every connection after sending it `z`; when every client is open with room for every average and `z`, the end is a failure exactly when the schedule is undefined, so a refused contribution always reaches every client as `z` |
| Server.Coordinator.Run | server.cpp:237-319 | a run ends in success exactly when every hello is valid, the schedule of the greeted streams is defined, and every client is open with room for its id, its setup, every average and `x`; then client k has received exactly those, in that order; a run that ends in failure has closed every connection, whose output ends with `z`; when every hello is valid and every client is open with room for its id, its setup, every average and `z`, the run fails exactly when the schedule of the greeted streams is undefined |
| Barrier.CollectionBuffers.constructor | server.cpp:35 | the three layer buffers start empty |
| Barrier.CollectionBuffers.Deposit | server.cpp:196-199 | the matrix is appended to its layer's buffer only, and `listo` holds exactly when that deposit made the buffer size equal to the client count |
| Barrier.CollectionBuffers.Average | server.cpp:205-210 | each element of the average is the column sum over the buffer divided by the client count |
| Barrier.CollectionBuffers.Clear | server.cpp:219-220 | the layer's buffer becomes empty and the other layers are unchanged |
| Barrier.ColumnSum | server.cpp:205-208 | element i summed over the deposited vectors, in deposit order, starting from 0.0 |
| Barrier.Mean | server.cpp:205-210 | the element-wise sum of the deposited vectors divided by the client count, one element per position of the layer |
| Barrier.ColumnSumPermutation | server.cpp:206-208 | summing a column over any rearrangement of the contributions gives the same sum |
| Barrier.MeanArrivalOrder | server.cpp:194-210 | the average of the contributions in any arrival order equals their average in connection order |
| Barrier.MeanOfAgreement | server.cpp:205-210 | when every client sends the same vector, the average is that vector |
| Barrier.MeanBounds | server.cpp:205-210 | every element of the average lies between the smallest and largest contribution for that element |
| Barrier.TwoClientScenario | server.cpp:205-210 | two clients sending [2.0] and [4.0] get [3.0]; sending [1,2,3] and [3,4,5] they get [2,3,4] |
| Client.HasLayer | client.py:33-34 | a layer byte follows the header exactly for the types `M` and `m` |
| Client.ReadLayer | client.py:33-35 | a layer byte is read exactly for `M` and `m` packets, and fails only when the stream has ended |
| Client.ReadPayload | client.py:36 | exactly `size` bytes are read, none when the size is zero; a negative size is a length error and a short stream ConnectionClosed |
| Client.ReadPacket | client.py:25-37 | a packet read consumes at least the header, its type is byte ten and never `z`, and it carries a layer exactly for `M`/`m` |
| Client.ReadPacketFields | client.py:25-37 | a packet read is what its bytes say: the length field gives the payload length, the layer is the byte after the header, and the stream is header, layer, payload, rest |
| Client.RecvPkt | client.py:25-37 | reading a packet from a connection returns what `ReadPacket` says, consuming exactly its bytes, and closes the socket exactly on a `z` |
| Client.Expect | client.py:81 | an expected-type read succeeds exactly when a packet is read and has that type, and then yields its payload |
| Client.ReadConfig | client.py:87-96 | what the client reads after its id: an `e` whose payload `int()` reads as the epoch count, an `f` whose payload is the file name, then an `s`; any other type or an unreadable count is an error |
| Client.ReadSetup | client.py:81-96 | what the client reads after its hello: an `i` whose payload `int()` reads as its id, then the configuration |
| Client.ExpectPkt | client.py:87 | reading an expected packet from a connection returns what `Expect` says and consumes exactly its bytes |
| Client.ReceiveConfig | client.py:87-96 | the client's reads of `e`, `f` and `s` return what `ReadConfig` says of its input |
| Client.HelloBytes | client.py:79 | the hello `make_hdr(0, 'I')` is exactly the eleven bytes `0000000000I` |
| Client.ReceiveSetup | client.py:81-96 | the client's reads of `i`, `e`, `f` and `s` return what `ReadSetup` says of its input, consuming exactly those bytes |
| Client.Hello | client.py:79-96 | the client sends exactly `0000000000I` and then reads its id and setup as `ReadSetup` says; an unsendable hello is a send failure |
| Client.ReadAverage | client.py:144-146 | a reply is accepted exactly when it is an `m` packet whose layer byte `int()` reads as lid and whose payload holds exactly `width` doubles; the value is those doubles and the stream resumes after the packet |
| Client.WeightPacket | client.py:136-138 | the client's `M` packet for layer lid: `make_hdr(8·w.size, 'M', str(lid))`, then the raw bytes of the weights |
| Client.SyncLayer | client.py:134-148 | the client sends the layer's `M` packet and returns the reply `ReadAverage` accepts, consuming exactly its bytes |
| Client.ReadEnd | client.py:153 | the final read succeeds exactly when the next packet is an `x` |
| Protocol.ClientReadsRaw | server.cpp:79-92 | the client reads any `send_raw` packet (type not `z`, `M` or `m`) back as that type and payload, leaving the rest of the stream |
| Protocol.ClientStopsOnAbort | client.py:29-31 | a `z` packet ends the client before anything after its header is read |
| Protocol.ClientReadsVec | server.cpp:95-104 | the client reads any `send_vecd` packet of type `M` or `m` back with its layer byte and the vector's raw bytes |
| Protocol.LayerText | client.py:137 | for a single-digit layer id, `str(lid)` is the layer byte the server expects and `int()` reads it back as lid |
| Protocol.LayerBytesFit | server.cpp:30 | every layer's vector size fits the ten-digit length field and an int |
| Protocol.ClientReadsAverage | client.py:144-146 | the client accepts the server's `m` packet for the layer it is synchronising and recovers the averaged vector |
| Protocol.ServerReadsWeights | client.py:134-141 | the client's `M` packet for layer lid passes every check of the worker for that layer, which recovers the weights |
| Protocol.HelloAccepted | client.py:79 | the client's hello passes the coordinator's handshake check |
| Protocol.HandshakeOnlyHello | server.cpp:271-274 | among headers with an all-digit length field, the hello is the only one the handshake accepts |
| Protocol.ClientReadsConfig | client.py:87-96 | the client reads the three setup packets as the epoch count (through `int()`) and the file name |
| Protocol.ClientReadsSetup | server.cpp:278-299 | the client reads its id packet and setup packets as its id, the epoch count and its partition file, for every id below 10^10 and every int epoch count |
| Protocol.ReadReplies | client.py:134-146 | n synchronisations read back n averages |
| Protocol.ClientReadsAverages | client.py:123-146 | the client reads back every average of a sequence of rounds, in order, from the packets the coordinator broadcasts for them |
| Protocol.ClientReadsEnd | client.py:153 | the client reads the final `x` and stops |
| Protocol.ReadSession | client.py:79-153 | a complete session read yields one average per layer per epoch |
| Protocol.ClientReadsRun | server.cpp:237-319 | everything the coordinator sends client i in a successful run is read by the client as exactly its id, the epoch count, its partition file and the averages |

## Left out

- Sockets, `bind`/`listen`/`accept`, `SO_RCVTIMEO` timeouts and `setsockopt` are not modelled. A connection is a class whose input ends where a read would fail.
- Stalled peers: only the worker's header read has a timeout (server.cpp:171-174). A peer that stalls during the hello (server.cpp:263), the layer byte or the payload blocks the source for ever, whereas the model treats the stall as the end of the input and reports ConnectionClosed.
- Threads, the mutex and `std::atomic` are not modelled. Rounds are sequentialised as described above, and a failed worker stops the model at once, where the other threads of the source would time out on their next read.
- Floating-point arithmetic is not modelled. The average is computed over reals, so IEEE rounding and the client's `float32` copy of the average are not captured. The byte layout of a double is a parameter.
- `std::_Exit`, process exit codes and the console output are left out. `imprimir_m`, `print_M`, `printM`, `printMValores` and the other debug prints have no effect on the protocol. The `mapa` table is only read by `print_M`.
- `generate_partitions`, `partition.py`, the pybind bindings and `setup.py` are outside the modelled core. So are the CSV loading and the torch training loop: the weights a client sends are a parameter.
- Python `int()` is modelled on ASCII digits, whitespace and a sign. Underscores and non-ASCII digits and whitespace are not modelled. `.decode()` is taken as the identity, and a `SIGPIPE` on a write to a closed peer is not modelled.
- The abort path is sequentialised: after a failure during the rounds the coordinator sends `z` to every registered socket. A hello or setup packet that fails ends the run with `Terminated`, the model's outcome for an exception escaping `main`, and no `z` is sent.
- Server.ParseContribution: refuses a payload longer than 8·ELEM[lid] bytes (PayloadOverrun), where the source has no such check and its memcpy overruns the vector (server.cpp:187-189). Schedule, RunRound, Rounds, Train, Serve and Run inherit this: in the model an oversized `M` aborts the run with `z`, which is the corrected program, not the one as written.
- Server.Coordinator.Train: after an abort, which averages reached which client before the failure is not stated; only that no client's capacity shrank by more than all the averages' bytes.
- Server.Coordinator.Run: for a run that ends in failure, states that every connection is closed and its output ends with `z`, not which averages were delivered before it. A run that ends `Terminated` states nothing about the outputs.
- Protocol.HandshakeOnlyHello: covers only headers whose length field is all digits. The handshake also accepts other spellings of zero that `stoi` allows, such as leading blanks or a sign, and that acceptance is not proved.
- Protocol.ReadReplies: states only the number of averages read; what they are is stated by `Protocol.ClientReadsAverages`.

## Findings

| source | as written | input that shows it | evidently intended | confidence | as-written member | corrected member |
|---|---|---|---|---|---|---|
| server.cpp:187-189 | the worker reads `sz` payload bytes and `memcpy`s all of them into a vector of ELEM[lid] doubles; nothing checks `sz <= 8 * ELEM[lid]` | an `M` packet for layer 2 (32 doubles, 256 bytes) whose header announces 264 and is followed by 264 bytes passes every check and writes eight bytes past the vector | reject a payload larger than the layer's vector before copying it | high; not executed | Server.OverrunPassesChecks | Server.ParseContribution |

=== FILE: barrier.dfy ===
/** The per-layer round collection buffers of the coordinator (`buf` in
    server.cpp) and the element-wise mean the completing worker computes.
    Arrivals from concurrent workers are serialised by the mutex; here they
    are consecutive calls, one per arrival, in arrival order. */
module Barrier {

  /** Number of layers of the trained network. */
  const LAYERS: nat := 3

  /** ELEM: the number of doubles in each layer's contribution
      (weights of 17->64, 64->32 and 32->1 linear layers). */
  const ELEM: seq<nat> := [64 * 17, 32 * 64, 1 * 32]

  /** Every vector of `ms` has `width` elements. */
  predicate Uniform(ms: seq<seq<real>>, width: nat)
  {
    forall k :: 0 <= k < |ms| ==> |ms[k]| == width
  }

  /** Element i summed over the vectors of `ms`, in deposit order. */
  function ColumnSum(ms: seq<seq<real>>, i: nat): real
    requires forall k :: 0 <= k < |ms| ==> i < |ms[k]|
  {
    if ms == [] then 0.0 else ColumnSum(ms[..|ms| - 1], i) + ms[|ms| - 1][i]
  }

  /** The element-wise arithmetic mean over `n` contributors of the
      deposited vectors. */
  function Mean(ms: seq<seq<real>>, width: nat, n: nat): seq<real>
    requires n > 0 && Uniform(ms, width)
  {
    seq(width, i requires 0 <= i < width => ColumnSum(ms, i) / n as real)
  }

  class CollectionBuffers {
    /** buf[lid]: the contributions deposited so far in the current round of
        layer lid, in arrival order. */
    var buf: seq<seq<seq<real>>>
    /** sockets.size(): how many deposits complete a round. */
    const clients: nat

    /** One buffer per layer, every entry of layer lid has ELEM[lid]
        elements, and no buffer holds more entries than there are clients. */
    ghost predicate Valid()
      reads this
    {
      && |buf| == LAYERS
      && forall l :: 0 <= l < LAYERS ==> Uniform(buf[l], ELEM[l]) && |buf[l]| <= clients
    }

    /** `std::vector<...> buf(3)`: three empty buffers. */
    constructor (n: nat)
      ensures Valid() && clients == n
      ensures buf == [[], [], []]
    {
      buf := [[], [], []];
      clients := n;
    }

    /** `buf[lid].push_back(mat); listo = buf[lid].size() == sockets.size()`,
        under the lock: the buffer grows by exactly this contribution and
        `listo` tells whether it was the one that completed the round. */
    method Deposit(lid: nat, mat: seq<real>) returns (listo: bool)
      requires Valid() && lid < LAYERS && |mat| == ELEM[lid] && |buf[lid]| < clients
      modifies this
      ensures Valid()
      ensures buf == old(buf)[lid := old(buf)[lid] + [mat]]
      ensures listo <==> |old(buf)[lid]| + 1 == clients
    {
      buf := buf[lid := buf[lid] + [mat]];
      listo := |buf[lid]| == clients;
    }

    /** The completer's averaging: `avg` starts as ELEM[lid] zeros, every
        deposited vector is added into it element by element, then every
        element is divided by the number of clients. */
    method Average(lid: nat) returns (avg: seq<real>)
      requires Valid() && lid < LAYERS && clients > 0
      ensures |avg| == ELEM[lid]
      ensures forall i :: 0 <= i < |avg| ==> avg[i] == ColumnSum(buf[lid], i) / clients as real
    {
      var width := ELEM[lid];
      var ms := buf[lid];
      var acc := new real[width](_ => 0.0);
      for j := 0 to |ms|
        invariant forall i :: 0 <= i < width ==> acc[i] == ColumnSum(ms[..j], i)
      {
        assert ms[..j + 1][..j] == ms[..j];
        for i := 0 to width
          invariant forall i' :: 0 <= i' < i ==> acc[i'] == ColumnSum(ms[..j + 1], i')
          invariant forall i' :: i <= i' < width ==> acc[i'] == ColumnSum(ms[..j], i')
        {
          acc[i] := acc[i] + ms[j][i];
        }
      }
      assert ms[..|ms|] == ms;
      for i := 0 to width
        invariant forall i' :: 0 <= i' < i ==> acc[i'] == ColumnSum(ms, i') / clients as real
        invariant forall i' :: i <= i' < width ==> acc[i'] == ColumnSum(ms, i')
      {
        acc[i] := acc[i] / clients as real;
      }
      avg := acc[..];
    }

    /** `buf[lid].clear()`, under the lock. */
    method Clear(lid: nat)
      requires Valid() && lid < LAYERS
      modifies this
      ensures Valid()
      ensures buf == old(buf)[lid := []]
    {
      buf := buf[lid := []];
    }
  }

  // ------------------------------------------------------------------------
  // Properties of the mean

  /** The indices 0..n-1 in order. */
  function Indices(n: nat): (s: seq<nat>)
    ensures |s| == n && forall t :: 0 <= t < n ==> s[t] == t
  {
    seq(n, t => t)
  }

  /** `order` lists every index below n exactly once: an order in which the
      n workers can arrive at the barrier. */
  predicate IsArrivalOrder(order: seq<nat>, n: nat)
  {
    multiset(order) == multiset(Indices(n))
  }

  lemma {:induction false} IndicesCount(n: nat, x: nat)
    ensures multiset(Indices(n))[x] == if x < n then 1 else 0
  {
    if n > 0 {
      assert Indices(n) == Indices(n - 1) + [n - 1];
      IndicesCount(n - 1, x);
    }
  }

  /** An arrival order names each of the n workers exactly once. */
  lemma ArrivalOrderFacts(order: seq<nat>, n: nat)
    requires IsArrivalOrder(order, n)
    ensures |order| == n
    ensures forall t :: 0 <= t < n ==> order[t] < n
    ensures forall s, t :: 0 <= s < t < n ==> order[s] != order[t]
    ensures forall k :: 0 <= k < n ==> k in order
  {
    assert |order| == |multiset(order)| == |multiset(Indices(n))| == n;
    forall t | 0 <= t < n
      ensures order[t] < n
    {
      assert order[t] in multiset(Indices(n));
    }
    forall s, t | 0 <= s < t < n
      ensures order[s] != order[t]
    {
      if order[s] == order[t] {
        var x := order[s];
        assert order == order[..s] + [x] + (order[s + 1..t] + [x] + order[t + 1..]);
        assert multiset(order)[x] >= 2;
        IndicesCount(n, x);
        assert false;
      }
    }
    forall k | 0 <= k < n
      ensures k in order
    {
      IndicesCount(n, k);
      assert k in multiset(order);
    }
  }

  /** The vectors of `ms` taken in the order `order` names them. */
  function Reorder(ms: seq<seq<real>>, order: seq<nat>): (r: seq<seq<real>>)
    requires forall t :: 0 <= t < |order| ==> order[t] < |ms|
    ensures |r| == |order| && forall t :: 0 <= t < |order| ==> r[t] == ms[order[t]]
  {
    seq(|order|, t requires 0 <= t < |order| => ms[order[t]])
  }

  lemma {:induction false} ColumnSumAppend(a: seq<seq<real>>, b: seq<seq<real>>, i: nat)
    requires forall k :: 0 <= k < |a| ==> i < |a[k]|
    requires forall k :: 0 <= k < |b| ==> i < |b[k]|
    ensures ColumnSum(a + b, i) == ColumnSum(a, i) + ColumnSum(b, i)
  {
    if b != [] {
      assert (a + b)[..|a + b| - 1] == a + b[..|b| - 1];
      ColumnSumAppend(a, b[..|b| - 1], i);
    } else {
      assert a + b == a;
    }
  }

  /** Taking the same element out of two orders with equal multisets
      leaves orders with equal multisets. */
  lemma RemoveMatching(a: seq<nat>, b: seq<nat>, p: nat)
    requires multiset(a) == multiset(b) && a != [] && p < |b| && b[p] == a[|a| - 1]
    ensures multiset(a[..|a| - 1]) == multiset(b[..p] + b[p + 1..])
  {
    var x := b[p];
    assert a == a[..|a| - 1] + [x];
    assert b == b[..p] + [x] + b[p + 1..];
    assert multiset(a[..|a| - 1]) == multiset(a) - multiset{x};
    assert multiset(b[..p] + b[p + 1..]) == multiset(b) - multiset{x};
  }

  /** Reordering by a concatenation of orders concatenates the reorderings. */
  lemma ReorderAppend(ms: seq<seq<real>>, a: seq<nat>, b: seq<nat>)
    requires forall t :: 0 <= t < |a| ==> a[t] < |ms|
    requires forall t :: 0 <= t < |b| ==> b[t] < |ms|
    ensures Reorder(ms, a + b) == Reorder(ms, a) + Reorder(ms, b)
  {
  }

  /** Removing the vector at position p of an order removes its element
      from the column sum. */
  lemma ColumnSumRemove(ms: seq<seq<real>>, b: seq<nat>, p: nat, i: nat)
    requires forall k :: 0 <= k < |ms| ==> i < |ms[k]|
    requires forall t :: 0 <= t < |b| ==> b[t] < |ms|
    requires p < |b|
    ensures ColumnSum(Reorder(ms, b), i) == ColumnSum(Reorder(ms, b[..p] + b[p + 1..]), i) + ms[b[p]][i]
  {
    var pre, post := b[..p], b[p + 1..];
    var left, right, mid := Reorder(ms, pre), Reorder(ms, post), Reorder(ms, [b[p]]);
    assert b == pre + [b[p]] + post;
    ReorderAppend(ms, pre + [b[p]], post);
    ReorderAppend(ms, pre, [b[p]]);
    ReorderAppend(ms, pre, post);
    ColumnSumAppend(left + mid, right, i);
    ColumnSumAppend(left, mid, i);
    ColumnSumAppend(left, right, i);
    assert mid[..0] == [];
  }

  /** The column sum over an arrival order depends only on which vectors
      arrived, not on their order. */
  lemma {:induction false} ColumnSumPermutation(ms: seq<seq<real>>, a: seq<nat>, b: seq<nat>, i: nat)
    requires forall k :: 0 <= k < |ms| ==> i < |ms[k]|
    requires forall t :: 0 <= t < |a| ==> a[t] < |ms|
    requires forall t :: 0 <= t < |b| ==> b[t] < |ms|
    requires multiset(a) == multiset(b)
    ensures ColumnSum(Reorder(ms, a), i) == ColumnSum(Reorder(ms, b), i)
    decreases |a|
  {
    if a == [] {
      assert |multiset(b)| == 0;
    } else {
      var n := |a| - 1;
      var x := a[n];
      assert x in multiset(b) by {
        assert a == a[..n] + [x];
      }
      var p :| 0 <= p < |b| && b[p] == x;
      RemoveMatching(a, b, p);
      ColumnSumPermutation(ms, a[..n], b[..p] + b[p + 1..], i);
      assert Reorder(ms, a)[..n] == Reorder(ms, a[..n]);
      ColumnSumRemove(ms, b, p, i);
    }
  }

  /** Whatever order the workers arrive in, the completer broadcasts the
      same mean. */
  lemma MeanArrivalOrder(ms: seq<seq<real>>, width: nat, order: seq<nat>)
    requires Uniform(ms, width) && |ms| > 0
    requires IsArrivalOrder(order, |ms|)
    ensures forall t :: 0 <= t < |order| ==> order[t] < |ms|
    ensures Uniform(Reorder(ms, order), width)
    ensures Mean(Reorder(ms, order), width, |ms|) == Mean(ms, width, |ms|)
  {
    forall t | 0 <= t < |order|
      ensures order[t] < |ms|
    {
      assert order[t] in multiset(Indices(|ms|));
    }
    assert Reorder(ms, Indices(|ms|)) == ms;
    forall i | 0 <= i < width
      ensures ColumnSum(Reorder(ms, order), i) == ColumnSum(ms, i)
    {
      ColumnSumPermutation(ms, order, Indices(|ms|), i);
    }
  }

  lemma {:induction false} ColumnSumCopies(v: seq<real>, n: nat, i: nat)
    requires i < |v|
    ensures ColumnSum(seq(n, _ => v), i) == n as real * v[i]
  {
    if n > 0 {
      assert seq(n, _ => v)[..n - 1] == seq(n - 1, _ => v);
      ColumnSumCopies(v, n - 1, i);
    }
  }

  /** When every client contributes the same vector, the mean is that
      vector: a round of agreeing clients leaves their weights unchanged. */
  lemma MeanOfAgreement(v: seq<real>, n: nat)
    requires n > 0
    ensures Uniform(seq(n, _ => v), |v|)
    ensures Mean(seq(n, _ => v), |v|, n) == v
  {
    forall i | 0 <= i < |v|
      ensures ColumnSum(seq(n, _ => v), i) / n as real == v[i]
    {
      ColumnSumCopies(v, n, i);
    }
  }

  lemma {:induction false} ColumnSumBounds(ms: seq<seq<real>>, i: nat, lo: real, hi: real)
    requires forall k :: 0 <= k < |ms| ==> i < |ms[k]| && lo <= ms[k][i] <= hi
    ensures |ms| as real * lo <= ColumnSum(ms, i) <= |ms| as real * hi
  {
    if ms != [] {
      ColumnSumBounds(ms[..|ms| - 1], i, lo, hi);
    }
  }

  /** With one deposit per client, each element of the mean lies between
      the smallest and the largest value the clients sent for it. */
  lemma MeanBounds(ms: seq<seq<real>>, width: nat, i: nat, lo: real, hi: real)
    requires Uniform(ms, width) && |ms| > 0 && i < width
    requires forall k :: 0 <= k < |ms| ==> lo <= ms[k][i] <= hi
    ensures lo <= Mean(ms, width, |ms|)[i] <= hi
  {
    ColumnSumBounds(ms, i, lo, hi);
    var n := |ms| as real;
    assert n * lo / n == lo && n * hi / n == hi;
  }

  /** With two clients, each element of the average is the mean of the
      two clients' elements. */
  lemma MeanOfTwo(a: seq<real>, b: seq<real>, width: nat)
    requires |a| == |b| == width
    ensures |Mean([a, b], width, 2)| == width
    ensures forall i :: 0 <= i < width ==> Mean([a, b], width, 2)[i] == (a[i] + b[i]) / 2.0
  {
    var ms := [a, b];
    assert ms[..1] == [a] && ms[..1][..0] == [];
    forall i | 0 <= i < width
      ensures ColumnSum(ms, i) == a[i] + b[i]
    {
      assert ColumnSum(ms[..1], i) == ColumnSum(ms[..1][..0], i) + a[i];
      assert ColumnSum(ms, i) == ColumnSum(ms[..1], i) + b[i];
    }
  }

  /** Two clients, one element: [2.0] and [4.0] average to [3.0]; three
      elements: [1,2,3] and [3,4,5] average to [2,3,4]. */
  lemma TwoClientScenario()
    ensures Mean([[2.0], [4.0]], 1, 2) == [3.0]
    ensures Mean([[1.0, 2.0, 3.0], [3.0, 4.0, 5.0]], 3, 2) == [2.0, 3.0, 4.0]
  {
    MeanOfTwo([2.0], [4.0], 1);
    MeanOfTwo([1.0, 2.0, 3.0], [3.0, 4.0, 5.0], 3);
  }
}

=== FILE: base.dfy ===
/** Outcome types shared by every part of the model: an optional value, and a
    value-or-error result whose errors stand for the exceptions the coordinator
    and its clients raise. */
module Base {

  datatype Option<+T> = None | Some(value: T)

  /** The failure causes the source distinguishes, by where they are raised. */
  datatype Error =
    | ConnectionClosed   // recv() returned <= 0: peer closed, receive timeout, socket error
    | InvalidArgument    // std::stoi / int() found no number
    | OutOfRange         // std::stoi: value does not fit in an int
    | LengthError        // a negative length converted to size_t is too large to allocate
    | UnexpectedType     // frame type is not the one the protocol step expects
    | LayerOutOfOrder    // layer digit is not the layer being processed
    | BadHandshake       // first frame of a connection is not the identity request
    | PayloadOverrun     // payload longer than the layer's vector: memcpy would overrun it
    | BadPayloadSize     // client: reply payload does not hold exactly the expected doubles
    | SendFailed         // send() returned <= 0
    | ServerAborted      // client: the server sent the abort frame 'z'

  datatype Result<+T> = Ok(value: T) | Err(error: Error)

  /** A value read from the front of a byte stream, and the bytes after it. */
  datatype Parsed<+T> = Parsed(value: T, rest: seq<char>)

  /** No element occurs twice: distinct descriptors, distinct workers. */
  predicate Distinct<T(==)>(s: seq<T>)
  {
    forall j, k :: 0 <= j < k < |s| ==> s[j] != s[k]
  }

  /** Concatenation is associative. */
  lemma AppendAssoc<T>(a: seq<T>, b: seq<T>, c: seq<T>)
    ensures (a + b) + c == a + (b + c)
  {
  }

  /** A non-empty sequence is its front followed by its last element. */
  lemma FrontLast<T>(s: seq<T>)
    requires s != []
    ensures s[..|s| - 1] + [s[|s| - 1]] == s
  {
  }
}

=== FILE: channel.dfy ===
/** The reliable byte channel of tcp.cpp: `receive_exact` and `send_all`
    over a stream socket whose `recv` and `send` may move fewer bytes than
    asked for. */
module Channel {
  import opened Base

  /** One end of a TCP connection, as seen by the process that owns the
      descriptor. */
  class Conn {
    /** The bytes the peer will still deliver, in order, before its stream
        ends. The end stands for every way a read fails: the peer closed,
        the armed receive timeout expired, or the socket reported an error. */
    var inbound: seq<char>
    /** Every byte delivered to the peer so far, in order. */
    var outbound: seq<char>
    /** How many more bytes the peer accepts before writes start failing. */
    var room: nat
    /** False once the descriptor has been closed. */
    var open: bool

    constructor (incoming: seq<char>, capacity: nat)
      ensures inbound == incoming && outbound == [] && room == capacity && open
    {
      inbound, outbound, room, open := incoming, [], capacity, true;
    }

    /** `recv(fd, a + off, max, 0)`: delivers a non-empty chunk of at most
        `max` bytes into `a[off..]`, or reports the end of the stream with a
        result <= 0. The contract allows any chunk size; this body always
        delivers as much as it can. */
    method Recv(a: array<char>, off: nat, max: nat) returns (r: int)
      requires 0 < max && off + max <= a.Length
      modifies this`inbound, a
      ensures r <= 0 <==> old(inbound) == []
      ensures r <= 0 ==> inbound == old(inbound) && a[..] == old(a[..])
      ensures r > 0 ==> r <= max && r <= |old(inbound)|
      ensures r > 0 ==> inbound == old(inbound)[r..]
      ensures r > 0 ==> a[..] == old(a[..off]) + old(inbound)[..r] + old(a[off + r..])
    {
      if inbound == [] {
        return 0;
      }
      r := if max < |inbound| then max else |inbound|;
      forall i | off <= i < off + r {
        a[i] := inbound[i - off];
      }
      assert a[..] == old(a[..off]) + old(inbound)[..r] + old(a[off + r..]);
      inbound := inbound[r..];
    }

    /** `send(fd, data + p, len, 0)`: accepts a non-empty prefix of the
        `len` bytes at `p`, or fails with a result <= 0 when the descriptor
        is closed or the peer takes no more. */
    method Send(data: seq<char>, p: nat, len: nat) returns (s: int)
      requires 0 < len && p + len <= |data|
      modifies this`outbound, this`room
      ensures s <= 0 <==> !open || old(room) == 0
      ensures s <= 0 ==> outbound == old(outbound) && room == old(room)
      ensures s > 0 ==> s <= len && s <= old(room) && room == old(room) - s
      ensures s > 0 ==> outbound == old(outbound) + data[p..p + s]
    {
      if !open || room == 0 {
        return -1;
      }
      s := if len < room then len else room;
      outbound := outbound + data[p..p + s];
      room := room - s;
    }

    /** `close(fd)`. */
    method Close()
      modifies this`open
      ensures !open
    {
      open := false;
    }
  }

  /** The concatenation of a sequence of chunks. */
  function Concat(chunks: seq<seq<char>>): seq<char>
  {
    if chunks == [] then [] else Concat(chunks[..|chunks| - 1]) + chunks[|chunks| - 1]
  }

  /** `receive_exact(fd, n)`: either the next `n` bytes of the stream, read
      in place into a fresh buffer as the concatenation of the chunks `recv`
      delivered, or ConnectionClosed as soon as a `recv` returns <= 0. A short
      buffer is never returned, and `n == 0` reads nothing. */
  method ReceiveExact(c: Conn, n: nat) returns (r: Result<seq<char>>, ghost chunks: seq<seq<char>>)
    modifies c`inbound
    ensures r.Ok? <==> n <= |old(c.inbound)|
    ensures r.Ok? ==> r.value == old(c.inbound)[..n] && c.inbound == old(c.inbound)[n..]
    ensures r.Ok? ==> r.value == Concat(chunks) && |chunks| <= n
    ensures forall k :: 0 <= k < |chunks| ==> chunks[k] != []
    ensures r.Err? ==> r.error == ConnectionClosed && c.inbound == []
    ensures n == 0 ==> chunks == [] && c.inbound == old(c.inbound)
  {
    var buf := new char[n];
    var got: nat := 0;
    chunks := [];
    while got < n
      invariant got <= n && got <= |old(c.inbound)| && |chunks| <= got
      invariant buf[..got] == old(c.inbound)[..got] == Concat(chunks)
      invariant c.inbound == old(c.inbound)[got..]
      invariant forall k :: 0 <= k < |chunks| ==> chunks[k] != []
      decreases n - got
    {
      var k := c.Recv(buf, got, n - got);
      if k <= 0 {
        return Err(ConnectionClosed), chunks;
      }
      assert buf[..got + k] == buf[..got] + buf[got..got + k];
      chunks := chunks + [buf[got..got + k]];
      got := got + k;
    }
    r := Ok(buf[..]);
  }

  /** `send_all(fd, data)`: hands `data` to `send` until `left` reaches zero,
      keeping `p + left == |data|`; on normal return the peer has received
      every byte, in order. A `send` result <= 0 makes it fail, with a prefix
      of `data` delivered. */
  method SendAll(c: Conn, data: seq<char>) returns (ok: bool)
    modifies c`outbound, c`room
    ensures ok <==> data == [] || (c.open && |data| <= old(c.room))
    ensures ok ==> c.outbound == old(c.outbound) + data && c.room == old(c.room) - |data|
    ensures !ok ==> exists k :: 0 <= k < |data| && c.outbound == old(c.outbound) + data[..k]
    ensures old(c.room) <= c.room + |data|
  {
    var p: nat := 0;
    var left: nat := |data|;
    while left > 0
      invariant p + left == |data|
      invariant c.outbound == old(c.outbound) + data[..p]
      invariant c.room + p == old(c.room)
      invariant p > 0 ==> c.open
      decreases left
    {
      var s := c.Send(data, p, left);
      if s <= 0 {
        return false;
      }
      assert data[..p + s] == data[..p] + data[p..p + s];
      p := p + s;
      left := left - s;
    }
    assert data[..p] == data;
    ok := true;
  }
}

=== FILE: client.dfy ===
/** The client's side of the protocol (client.py): reading a packet with
    `recv_pkt`, the handshake and setup exchange, the per-layer weight
    exchange and the final 'x'. The client's socket is a `Conn` whose
    `inbound` holds what the server will send and whose `outbound` collects
    what the client sends. Bytes decoded to text with `.decode()` are taken
    as the same characters. */
module Client {
  import opened Base
  import opened Decimal
  import opened Frame
  import opened Channel
  import opened Doubles

  /** What `recv_pkt` returns: the type, the layer byte (for 'M' and 'm'
      only) and the payload. */
  datatype Packet = Packet(typ: char, layer: Option<char>, payload: seq<char>)

  /** The types after which a layer byte follows the header. */
  predicate HasLayer(typ: char)
  {
    typ == 'M' || typ == 'm'
  }

  /** The layer byte `recv_pkt` reads after a header of type typ: one byte
      for 'M' and 'm', none otherwise. */
  function ReadLayer(typ: char, s: seq<char>): (r: Result<Parsed<Option<char>>>)
    ensures r.Ok? <==> !HasLayer(typ) || s != []
    ensures r.Ok? ==> (r.value.value.Some? <==> HasLayer(typ))
    ensures r.Ok? ==> s == (if HasLayer(typ) then [r.value.value.value] else []) + r.value.rest
    ensures r.Err? ==> r.error == ConnectionClosed
  {
    if !HasLayer(typ) then Ok(Parsed(None, s))
    else if s == [] then Err(ConnectionClosed)
    else Ok(Parsed(Some(s[0]), s[1..]))
  }

  /** `recv_exact(sock, size) if size else b''`. A negative size cannot be
      passed to the binding's unsigned `n` and raises there; a stream that
      ends early is ConnectionClosed, as `receive_exact` reports it. */
  function ReadPayload(size: int, s: seq<char>): (r: Result<Parsed<seq<char>>>)
    ensures r.Ok? <==> 0 <= size <= |s|
    ensures r.Ok? ==> |r.value.value| == size && s == r.value.value + r.value.rest
    ensures r.Err? ==> r.error == (if size < 0 then LengthError else ConnectionClosed)
  {
    if size == 0 then Ok(Parsed([], s))
    else if size < 0 then Err(LengthError)
    else if |s| < size then Err(ConnectionClosed)
    else Ok(Parsed(s[..size], s[size..]))
  }

  /** `recv_pkt` on the stream s: the 11-byte header; int() of its first ten
      bytes (ValueError when they do not spell an integer); a 'z' type ends
      the client; then the layer byte and the payload. */
  function ReadPacket(s: seq<char>): (r: Result<Parsed<Packet>>)
    ensures r.Ok? ==> |r.value.rest| <= |s| - HDR_BASE && r.value.rest == s[|s| - |r.value.rest|..]
    ensures r.Ok? ==> r.value.value.typ == s[WIDTH] != 'z'
    ensures r.Ok? ==> (r.value.value.layer.Some? <==> HasLayer(r.value.value.typ))
  {
    if |s| < HDR_BASE then Err(ConnectionClosed)
    else match PyInt(s[..WIDTH])
      case Err(e) => Err(e)
      case Ok(size) =>
        if s[WIDTH] == 'z' then Err(ServerAborted)
        else match ReadLayer(s[WIDTH], s[HDR_BASE..])
          case Err(e) => Err(e)
          case Ok(l) =>
            match ReadPayload(size, l.rest)
            case Err(e) => Err(e)
            case Ok(p) => Ok(Parsed(Packet(s[WIDTH], l.value, p.value), p.rest))
  }

  /** A packet the reader returns is what its bytes say: a length field
      int() reads as the payload's length, the type at offset 10 and the
      layer byte right after the header. */
  lemma ReadPacketFields(s: seq<char>)
    requires ReadPacket(s).Ok?
    ensures var p := ReadPacket(s).value.value;
      && PyInt(s[..WIDTH]) == Ok(|p.payload|)
      && (p.layer.Some? ==> p.layer.value == s[HDR_BASE])
      && s == s[..HDR_BASE] + (if p.layer.Some? then [p.layer.value] else []) + p.payload
              + ReadPacket(s).value.rest
  {
    var l := ReadLayer(s[WIDTH], s[HDR_BASE..]).value;
    var p := ReadPayload(PyInt(s[..WIDTH]).value, l.rest).value;
    assert s == s[..HDR_BASE] + s[HDR_BASE..];
  }

  /** `recv_pkt(sock)`: reads the header, the layer byte and the payload
      with `receive_exact`, in that order; on a 'z' it closes the socket
      (the client then exits). */
  method RecvPkt(c: Conn) returns (r: Result<Packet>)
    modifies c`inbound, c`open
    ensures match ReadPacket(old(c.inbound))
      case Ok(p) => r == Ok(p.value) && c.inbound == p.rest
      case Err(e) => r == Err(e)
    ensures c.open <==> old(c.open) && r != Err(ServerAborted)
  {
    ghost var s := c.inbound;
    var h, _ := ReceiveExact(c, HDR_BASE);
    if h.Err? {
      assert ReadPacket(s) == Err(ConnectionClosed);
      return Err(ConnectionClosed);
    }
    assert h.value[..WIDTH] == s[..WIDTH] && h.value[WIDTH] == s[WIDTH];
    var size := PyInt(h.value[..WIDTH]);
    if size.Err? {
      assert ReadPacket(s) == Err(size.error);
      return Err(size.error);
    }
    var typ := h.value[WIDTH];
    if typ == 'z' {
      c.Close();
      assert ReadPacket(s) == Err(ServerAborted);
      return Err(ServerAborted);
    }
    var layer: Option<char> := None;
    if HasLayer(typ) {
      var l, _ := ReceiveExact(c, 1);
      if l.Err? {
        assert ReadPacket(s) == Err(ConnectionClosed);
        return Err(ConnectionClosed);
      }
      layer := Some(l.value[0]);
    }
    ghost var s2 := c.inbound;
    assert s2 == if HasLayer(typ) then s[HDR_BASE..][1..] else s[HDR_BASE..];
    var payload: seq<char> := [];
    if size.value != 0 {
      if size.value < 0 {
        assert ReadPacket(s) == Err(LengthError);
        return Err(LengthError);
      }
      var d, _ := ReceiveExact(c, size.value);
      if d.Err? {
        assert ReadPacket(s) == Err(ConnectionClosed);
        return Err(ConnectionClosed);
      }
      payload := d.value;
    }
    assert ReadPacket(s) == Ok(Parsed(Packet(typ, layer, payload), c.inbound));
    r := Ok(Packet(typ, layer, payload));
  }

  // ------------------------------------------------------------------------
  // Handshake and setup

  /** The hello the client sends: a zero length and type 'I'. */
  const HELLO: string := MakeHdr(0, "I", None)

  /** The hello on the wire: ten zeros and then 'I'. */
  lemma HelloBytes()
    ensures HELLO == "0000000000I" && |HELLO| == HDR_BASE
  {
    assert ToString(0) == "0";
    assert Zeros(WIDTH - 1) == "000000000";
  }

  /** What the client learns before training: its id, the epoch count and
      the name of its partition file. */
  datatype Setup = Setup(cid: int, epochs: int, csv: string)

  /** One `recv_pkt` whose type must be `typ` (an AssertionError
      otherwise), giving the packet's payload. */
  function Expect(s: seq<char>, typ: char): (r: Result<Parsed<seq<char>>>)
    ensures r.Ok? <==> ReadPacket(s).Ok? && ReadPacket(s).value.value.typ == typ
    ensures r.Ok? ==> r.value == Parsed(ReadPacket(s).value.value.payload, ReadPacket(s).value.rest)
  {
    match ReadPacket(s)
    case Err(e) => Err(e)
    case Ok(p) => if p.value.typ != typ then Err(UnexpectedType) else Ok(Parsed(p.value.payload, p.rest))
  }

  /** What the client reads after its id: 'e' with the epoch count (through
      int()), 'f' with the file name and 's'. */
  function ReadConfig(s: seq<char>, cid: int): (r: Result<Parsed<Setup>>)
  {
    match Expect(s, 'e')
    case Err(e) => Err(e)
    case Ok(e) =>
      match PyInt(e.value)
      case Err(err) => Err(err)
      case Ok(epochs) =>
        match Expect(e.rest, 'f')
        case Err(err) => Err(err)
        case Ok(f) =>
          match ReadPacket(f.rest)
          case Err(err) => Err(err)
          case Ok(st) =>
            if st.value.typ != 's' then Err(UnexpectedType)
            else Ok(Parsed(Setup(cid, epochs, f.value), st.rest))
  }

  /** What the client reads after its hello: 'i' with its id, through
      int(), then the configuration. */
  function ReadSetup(s: seq<char>): (r: Result<Parsed<Setup>>)
  {
    match Expect(s, 'i')
    case Err(e) => Err(e)
    case Ok(i) =>
      match PyInt(i.value)
      case Err(e) => Err(e)
      case Ok(cid) => ReadConfig(i.rest, cid)
  }

  /** `expect` on one `recv_pkt`, as a step of the client's script. */
  method ExpectPkt(c: Conn, typ: char) returns (r: Result<seq<char>>)
    modifies c`inbound, c`open
    ensures match Expect(old(c.inbound), typ)
      case Ok(p) => r == Ok(p.value) && c.inbound == p.rest
      case Err(e) => r == Err(e)
  {
    var p := RecvPkt(c);
    if p.Err? {
      return Err(p.error);
    }
    if p.value.typ != typ {
      return Err(UnexpectedType);
    }
    r := Ok(p.value.payload);
  }

  /** The 'e', 'f' and 's' steps of the connect-time script. */
  method ReceiveConfig(c: Conn, cid: int) returns (r: Result<Setup>)
    modifies c`inbound, c`open
    ensures match ReadConfig(old(c.inbound), cid)
      case Ok(p) => r == Ok(p.value) && c.inbound == p.rest
      case Err(e) => r == Err(e)
  {
    var e := ExpectPkt(c, 'e');
    if e.Err? {
      return Err(e.error);
    }
    var epochs := PyInt(e.value);
    if epochs.Err? {
      return Err(epochs.error);
    }
    var f := ExpectPkt(c, 'f');
    if f.Err? {
      return Err(f.error);
    }
    var st := RecvPkt(c);
    if st.Err? {
      return Err(st.error);
    }
    if st.value.typ != 's' {
      return Err(UnexpectedType);
    }
    r := Ok(Setup(cid, epochs.value, f.value));
  }

  /** The 'i' step of the connect-time script, then the configuration. */
  method ReceiveSetup(c: Conn) returns (r: Result<Setup>)
    modifies c`inbound, c`open
    ensures match ReadSetup(old(c.inbound))
      case Ok(p) => r == Ok(p.value) && c.inbound == p.rest
      case Err(e) => r == Err(e)
  {
    var i := ExpectPkt(c, 'i');
    if i.Err? {
      return Err(i.error);
    }
    var cid := PyInt(i.value);
    if cid.Err? {
      return Err(cid.error);
    }
    r := ReceiveConfig(c, cid.value);
  }

  /** client.py's connect-time script: send the hello, then read 'i', 'e',
      'f' and 's'. A failed send raises from the binding's `send_all`. */
  method Hello(c: Conn) returns (r: Result<Setup>)
    modifies c
    ensures old(c.open && |HELLO| <= c.room) ==> c.outbound == old(c.outbound) + HELLO
    ensures !old(c.open && |HELLO| <= c.room) ==> r == Err(SendFailed)
    ensures old(c.open && |HELLO| <= c.room) ==> match ReadSetup(old(c.inbound))
      case Ok(p) => r == Ok(p.value) && c.inbound == p.rest
      case Err(e) => r == Err(e)
  {
    assert HELLO == Pad10(0) + "I";
    assert |HELLO| == HDR_BASE;
    var sent := SendAll(c, HELLO);
    if !sent {
      return Err(SendFailed);
    }
    r := ReceiveSetup(c);
  }

  // ------------------------------------------------------------------------
  // Weight exchange

  /** The 'M' packet the client sends for layer lid with weights w:
      `make_hdr(w.size * 8, 'M', str(lid))` followed by `w.tobytes()`. */
  function WeightPacket(layout: Layout, lid: nat, w: seq<real>): seq<char>
  {
    MakeHdr(8 * |w|, "M", Some(ToString(lid))) + Pack(layout, w)
  }

  /** The reply the client accepts for layer lid with `width` weights: an
      'm' packet whose layer byte int() reads as lid and whose payload holds
      exactly `width` doubles (np.frombuffer(...).reshape(w.shape) raises
      otherwise); the doubles are its values. */
  function ReadAverage(layout: Layout, s: seq<char>, lid: nat, width: nat): (r: Result<Parsed<seq<real>>>)
    ensures r.Ok? <==>
      && ReadPacket(s).Ok?
      && ReadPacket(s).value.value.typ == 'm'
      && PyInt([ReadPacket(s).value.value.layer.value]) == Ok(lid)
      && |ReadPacket(s).value.value.payload| == 8 * width
    ensures r.Ok? ==>
      && r.value == Parsed(Unpack(layout, ReadPacket(s).value.value.payload, width), ReadPacket(s).value.rest)
      && |r.value.value| == width
  {
    match ReadPacket(s)
    case Err(e) => Err(e)
    case Ok(p) =>
      if p.value.typ != 'm' then Err(UnexpectedType)
      else match PyInt([p.value.layer.value])
        case Err(e) => Err(e)
        case Ok(l) =>
          if l != lid then Err(LayerOutOfOrder)
          else if |p.value.payload| != 8 * width then Err(BadPayloadSize)
          else Ok(Parsed(Unpack(layout, p.value.payload, width), p.rest))
  }

  /** One layer of the client's synchronisation: send the layer's weights
      as 'M', then read the average back. */
  method SyncLayer(c: Conn, layout: Layout, lid: nat, w: seq<real>) returns (r: Result<seq<real>>)
    modifies c
    ensures old(c.open && |WeightPacket(layout, lid, w)| <= c.room) ==>
      c.outbound == old(c.outbound) + WeightPacket(layout, lid, w)
    ensures !old(c.open && |WeightPacket(layout, lid, w)| <= c.room) ==> r == Err(SendFailed)
    ensures old(c.open && |WeightPacket(layout, lid, w)| <= c.room) ==>
      match ReadAverage(layout, old(c.inbound), lid, |w|)
      case Ok(p) => r == Ok(p.value) && c.inbound == p.rest
      case Err(e) => r == Err(e)
  {
    ghost var s := c.inbound;
    var header := MakeHdr(8 * |w|, "M", Some(ToString(lid)));
    var sent := SendAll(c, header + Pack(layout, w));
    if !sent {
      return Err(SendFailed);
    }
    var p := RecvPkt(c);
    if p.Err? {
      return Err(p.error);
    }
    if p.value.typ != 'm' {
      return Err(UnexpectedType);
    }
    var l := PyInt([p.value.layer.value]);
    if l.Err? {
      return Err(l.error);
    }
    if l.value != lid {
      return Err(LayerOutOfOrder);
    }
    if |p.value.payload| != 8 * |w| {
      return Err(BadPayloadSize);
    }
    r := Ok(Unpack(layout, p.value.payload, |w|));
  }

  /** The final `recv_pkt`, which must be 'x'. */
  function ReadEnd(s: seq<char>): (r: Result<seq<char>>)
    ensures r.Ok? <==> ReadPacket(s).Ok? && ReadPacket(s).value.value.typ == 'x'
  {
    match Expect(s, 'x')
    case Err(e) => Err(e)
    case Ok(p) => Ok(p.rest)
  }
}

=== FILE: decimal.dfy ===
/** ASCII decimal numbers as the frame header spells and reads them:
    the shortest spelling (std::to_string, operator<< on an unsigned value,
    Python's str), left zero padding to a field width (std::setw(10) with
    std::setfill('0'), Python's {:010d}), and the two parsers the peers use
    on the length field (C++ std::stoi and Python's int()). */
module Decimal {
  import opened Base

  const INT_MIN: int := -0x8000_0000
  const INT_MAX: int := 0x7fff_ffff

  /** The width of the length field of every frame header. */
  const WIDTH: nat := 10

  predicate IsDigit(c: char) { '0' <= c <= '9' }

  /** Whitespace as C's isspace and Python's bytes.strip see it:
      space, tab, newline, vertical tab, form feed, carriage return. */
  predicate IsSpace(c: char) { c == ' ' || 9 <= c as int <= 13 }

  predicate AllDigits(s: string) { forall i :: 0 <= i < |s| ==> IsDigit(s[i]) }

  function Digit(d: nat): (c: char)
    requires d < 10
    ensures IsDigit(c)
  {
    ('0' as int + d) as char
  }

  function DigitValue(c: char): (d: nat)
    requires IsDigit(c)
    ensures d < 10 && Digit(d) == c
  {
    c as int - '0' as int
  }

  function Pow10(k: nat): (p: nat)
    ensures p >= 1
  {
    if k == 0 then 1 else 10 * Pow10(k - 1)
  }

  /** The number a string of decimal digits denotes, most significant first. */
  function Value(s: string): nat
    requires AllDigits(s)
  {
    if s == [] then 0 else 10 * Value(s[..|s| - 1]) + DigitValue(s[|s| - 1])
  }

  /** The shortest decimal spelling of n: no leading zero, "0" for zero. */
  function ToString(n: nat): (s: string)
    ensures AllDigits(s) && 1 <= |s|
    ensures Value(s) == n
    ensures |s| > 1 ==> s[0] != '0'
  {
    if n < 10 then [Digit(n)]
    else
      var prefix := ToString(n / 10);
      var s := prefix + [Digit(n % 10)];
      assert s[..|s| - 1] == prefix;
      s
  }

  /** std::to_string on a signed int. */
  function IntToString(i: int): string
  {
    if i < 0 then "-" + ToString(-i) else ToString(i)
  }

  function Zeros(k: nat): (z: string)
    ensures |z| == k && AllDigits(z)
    ensures forall i :: 0 <= i < k ==> z[i] == '0'
  {
    seq(k, _ => '0')
  }

  /** `setw(WIDTH) << setfill('0') << n`: pads on the left with '0' up to
      WIDTH characters and never truncates a longer spelling. */
  function Pad10(n: nat): string
  {
    var d := ToString(n);
    if |d| < WIDTH then Zeros(WIDTH - |d|) + d else d
  }

  lemma {:induction false} ToStringLength(n: nat, k: nat)
    requires 1 <= k
    ensures |ToString(n)| <= k <==> n < Pow10(k)
  {
    if n >= 10 {
      if k == 1 {
        assert |ToString(n)| == |ToString(n / 10)| + 1;
      } else {
        ToStringLength(n / 10, k - 1);
        assert Pow10(k) == 10 * Pow10(k - 1);
      }
    } else {
      assert Pow10(k) == 10 * Pow10(k - 1);
    }
  }

  lemma {:induction false} ValueOfZeros(k: nat)
    ensures Value(Zeros(k)) == 0
  {
    if k > 0 {
      assert Zeros(k)[..k - 1] == Zeros(k - 1);
      ValueOfZeros(k - 1);
    }
  }

  /** Leading zeros do not change the value of a digit string. */
  lemma {:induction false} ValueLeadingZeros(k: nat, s: string)
    requires AllDigits(s)
    ensures AllDigits(Zeros(k) + s) && Value(Zeros(k) + s) == Value(s)
  {
    var z := Zeros(k) + s;
    if s == [] {
      assert z == Zeros(k);
      ValueOfZeros(k);
    } else {
      assert z[..|z| - 1] == Zeros(k) + s[..|s| - 1];
      ValueLeadingZeros(k, s[..|s| - 1]);
    }
  }

  /** A digit string denotes zero exactly when every digit is '0'. */
  lemma {:induction false} ValueZeroIffZeros(s: string)
    requires AllDigits(s)
    ensures Value(s) == 0 <==> s == Zeros(|s|)
  {
    if s != [] {
      ValueZeroIffZeros(s[..|s| - 1]);
      if s == Zeros(|s|) {
        assert s[..|s| - 1] == Zeros(|s| - 1);
      }
      if Value(s) == 0 {
        assert s == s[..|s| - 1] + [s[|s| - 1]];
      }
    }
  }

  /** Below 10^10 the padded field is exactly ten digits and denotes n;
      from 10^10 on, the field is the plain spelling and is longer. */
  lemma Pad10Field(n: nat)
    ensures n < Pow10(WIDTH) ==> |Pad10(n)| == WIDTH && AllDigits(Pad10(n)) && Value(Pad10(n)) == n
    ensures n >= Pow10(WIDTH) ==> |Pad10(n)| > WIDTH && Pad10(n) == ToString(n)
  {
    ToStringLength(n, WIDTH);
    var d := ToString(n);
    if |d| < WIDTH {
      ValueLeadingZeros(WIDTH - |d|, d);
    }
  }

  /** Two numbers below 10^10 never share a header length field. */
  lemma Pad10Injective(a: nat, b: nat)
    requires a < Pow10(WIDTH) && b < Pow10(WIDTH)
    ensures Pad10(a) == Pad10(b) <==> a == b
  {
    Pad10Field(a);
    Pad10Field(b);
  }

  // ----------------------------------------------------------------------
  // C++ std::stoi (base 10)

  function SkipSpace(s: string): (t: string)
    ensures |t| <= |s| && t == s[|s| - |t|..]
    ensures t != [] ==> !IsSpace(t[0])
  {
    if s != [] && IsSpace(s[0]) then SkipSpace(s[1..]) else s
  }

  /** The longest run of digits at the front of s. */
  function DigitPrefix(s: string): (d: string)
    ensures AllDigits(d) && d <= s
    ensures |d| < |s| ==> !IsDigit(s[|d|])
  {
    if s != [] && IsDigit(s[0]) then [s[0]] + DigitPrefix(s[1..]) else []
  }

  /** std::stoi(s): skips leading whitespace, takes an optional sign and the
      longest run of digits after it, ignores whatever follows; throws
      invalid_argument when there is no digit and out_of_range when the value
      does not fit in an int. */
  function Stoi(s: string): Result<int>
  {
    var t := SkipSpace(s);
    var signed := t != [] && (t[0] == '+' || t[0] == '-');
    var d := DigitPrefix(if signed then t[1..] else t);
    if d == [] then Err(InvalidArgument)
    else
      var v: int := if signed && t[0] == '-' then -(Value(d) as int) else Value(d);
      if v < INT_MIN || v > INT_MAX then Err(OutOfRange) else Ok(v)
  }

  // ----------------------------------------------------------------------
  // Python int() on bytes / str

  function StripEnd(s: string): (t: string)
    ensures t <= s
  {
    if s != [] && IsSpace(s[|s| - 1]) then StripEnd(s[..|s| - 1]) else s
  }

  /** Python's int(s): surrounding whitespace is ignored, then an optional
      sign and at least one digit must make up everything that is left;
      anything else raises ValueError. */
  function PyInt(s: string): Result<int>
  {
    var t := StripEnd(SkipSpace(s));
    var signed := t != [] && (t[0] == '+' || t[0] == '-');
    var u := if signed then t[1..] else t;
    if u == [] || !AllDigits(u) then Err(InvalidArgument)
    else
      var v: int := if signed && t[0] == '-' then -(Value(u) as int) else Value(u);
      Ok(v)
  }

  lemma {:induction false} DigitPrefixOfDigits(s: string)
    requires AllDigits(s)
    ensures DigitPrefix(s) == s
  {
    if s != [] {
      DigitPrefixOfDigits(s[1..]);
    }
  }

  lemma {:induction false} StripEndOfDigits(s: string)
    requires AllDigits(s)
    ensures StripEnd(s) == s
  {
  }

  /** stoi on a plain digit string: its value, unless that exceeds INT_MAX. */
  lemma StoiOfDigits(s: string)
    requires AllDigits(s) && s != []
    ensures Stoi(s) == if Value(s) <= INT_MAX then Ok(Value(s)) else Err(OutOfRange)
  {
    assert SkipSpace(s) == s;
    DigitPrefixOfDigits(s);
  }

  /** int() on a plain digit string is its value, however large. */
  lemma PyIntOfDigits(s: string)
    requires AllDigits(s) && s != []
    ensures PyInt(s) == Ok(Value(s))
  {
    assert SkipSpace(s) == s;
    StripEndOfDigits(s);
  }

  /** int() on a minus sign followed by digits is the negated value. */
  lemma PyIntOfNegative(d: string)
    requires AllDigits(d) && d != []
    ensures PyInt("-" + d) == Ok(-(Value(d) as int))
  {
    var s := "-" + d;
    assert SkipSpace(s) == s by {
      assert !IsSpace(s[0]);
    }
    assert StripEnd(s) == s by {
      assert IsDigit(s[|s| - 1]);
    }
    assert s[1..] == d;
  }

  /** int(str(i)) == i: what the server spells with to_string the client
      reads back with int(). */
  lemma PyIntOfIntToString(i: int)
    ensures PyInt(IntToString(i)) == Ok(i)
  {
    if i < 0 {
      PyIntOfNegative(ToString(-i));
    } else {
      PyIntOfDigits(ToString(i));
    }
  }
}

=== FILE: doubles.dfy ===
/** Vectors of doubles as payload bytes. Values are `real`s; how the host
    lays a double out in 8 bytes (native byte order, IEEE-754) is not part of
    the model and is given to it as a `Layout`. The server's
    `reinterpret_cast` in send_vecd, its `memcpy` into a zeroed vector, and
    numpy's tobytes/frombuffer on the client all go through the same layout,
    because both ends run on hosts that share it. */
module Doubles {

  type Bytes8 = s: seq<char> | |s| == 8 witness ['\0', '\0', '\0', '\0', '\0', '\0', '\0', '\0']

  /** The host's in-memory representation of a double. */
  datatype Layout = Layout(encode: real -> Bytes8, decode: Bytes8 -> real)

  /** The bytes of the all-zero double 0.0, as `std::vector<double>(n)`
      initialises its storage. */
  function ZeroBytes(k: nat): (z: seq<char>)
    ensures |z| == k
  {
    seq(k, _ => '\0')
  }

  /** The raw bytes of `v`, element after element (`v.data()` viewed as
      `v.size() * 8` chars; numpy's `tobytes`). */
  function Pack(layout: Layout, v: seq<real>): (b: seq<char>)
    ensures |b| == 8 * |v|
  {
    if v == [] then [] else Pack(layout, v[..|v| - 1]) + layout.encode(v[|v| - 1])
  }

  /** Element i of a packed vector occupies bytes 8i..8i+8. */
  lemma {:induction false} PackBlock(layout: Layout, v: seq<real>, i: nat)
    requires i < |v|
    ensures Pack(layout, v)[8 * i..8 * i + 8] == layout.encode(v[i])
  {
    var n := |v| - 1;
    if i < n {
      PackBlock(layout, v[..n], i);
      assert v[..n][i] == v[i];
      assert Pack(layout, v)[..8 * n] == Pack(layout, v[..n]);
    }
  }

  /** `std::vector<double> mat(count); memcpy(mat.data(), data.data(), |data|)`:
      a vector of `count` zeros whose first |data| bytes are overwritten by
      `data`. An element no byte of `data` reaches stays 0.0; the element
      that `data` covers only in part keeps the zero bytes of 0.0 after it. */
  function Unpack(layout: Layout, data: seq<char>, count: nat): (m: seq<real>)
    requires |data| <= 8 * count
    ensures |m| == count
  {
    var bytes := data + ZeroBytes(8 * count - |data|);
    seq(count, i requires 0 <= i < count =>
      if 8 * i < |data| then layout.decode(bytes[8 * i..8 * i + 8]) else 0.0)
  }

  /** The layout reads back every value of `v` it writes. */
  ghost predicate RoundTrips(layout: Layout, v: seq<real>)
  {
    forall i :: 0 <= i < |v| ==> layout.decode(layout.encode(v[i])) == v[i]
  }

  /** Unpacking the bytes of a vector into a vector of the same length gives
      the vector back, whenever the layout reads back each of its values. */
  lemma UnpackPack(layout: Layout, v: seq<real>)
    requires RoundTrips(layout, v)
    ensures Unpack(layout, Pack(layout, v), |v|) == v
  {
    var m := Unpack(layout, Pack(layout, v), |v|);
    forall i | 0 <= i < |v|
      ensures m[i] == v[i]
    {
      PackBlock(layout, v, i);
      assert Pack(layout, v) + ZeroBytes(0) == Pack(layout, v);
    }
  }
}

=== FILE: frame.dfy ===
/** The ASCII frame header: a ten-digit zero-padded payload length, a
    one-character type and, for the bulk-vector types 'M' and 'm', a
    one-character layer digit. Three encoders exist in the system and are
    modelled separately, because they differ on the layer byte. */
module Frame {
  import opened Base
  import opened Decimal

  /** Width of a header without a layer byte (HDR_BASE, HDR_NO_LAY). */
  const HDR_BASE: nat := 11

  /** `make_header(bytes, type)` of tcp.cpp and its copy in server.cpp. */
  function MakeHeader(bytes: nat, typ: char): string
  {
    Pad10(bytes) + [typ]
  }

  /** tcp.cpp's three-argument `make_header`: the layer byte is written only
      when it is not '\0'. */
  function MakeHeaderLayer(bytes: nat, typ: char, layer: char): string
  {
    Pad10(bytes) + [typ] + (if layer != '\0' then [layer] else [])
  }

  /** server.cpp's three-argument `make_header`: the layer byte is always
      written. */
  function MakeHeader12(bytes: nat, typ: char, layer: char): string
  {
    Pad10(bytes) + [typ, layer]
  }

  /** client.py's `make_hdr(size, typ, layer=None)`: the layer text, when
      given, follows the type. */
  function MakeHdr(size: nat, typ: string, layer: Option<string>): string
  {
    Pad10(size) + typ + (match layer case Some(l) => l case None => "")
  }

  /** The layer byte the server writes and expects for layer `lid`: '0' + lid. */
  function LayerDigit(lid: nat): (c: char)
    requires lid < 10
    ensures IsDigit(c) && c == ToString(lid)[0]
  {
    Digit(lid)
  }

  /** Header sizes: 11 bytes without a layer byte, 12 with one, as long as
      the length fits the ten-digit field. */
  lemma HeaderLength(bytes: nat, typ: char, layer: char)
    requires bytes < Pow10(WIDTH)
    ensures |MakeHeader(bytes, typ)| == HDR_BASE
    ensures |MakeHeaderLayer(bytes, typ, layer)| == if layer == '\0' then HDR_BASE else HDR_BASE + 1
    ensures |MakeHeader12(bytes, typ, layer)| == HDR_BASE + 1
  {
    Pad10Field(bytes);
  }

  /** A length that does not fit ten digits widens the header: the type is
      then no longer at offset 10, where every reader looks for it. */
  lemma HeaderOverflow(bytes: nat, typ: char)
    requires bytes >= Pow10(WIDTH)
    ensures |MakeHeader(bytes, typ)| > HDR_BASE
    ensures IsDigit(MakeHeader(bytes, typ)[WIDTH])
  {
    Pad10Field(bytes);
  }

  /** The fields of an encoded header: ten digits denoting the length, the
      type at offset 10 and the layer (when written) at offset 11. */
  lemma HeaderFields(bytes: nat, typ: char, layer: char)
    requires bytes < Pow10(WIDTH)
    ensures var h := MakeHeader12(bytes, typ, layer);
      AllDigits(h[..WIDTH]) && Value(h[..WIDTH]) == bytes && h[WIDTH] == typ && h[WIDTH + 1] == layer
    ensures MakeHeader(bytes, typ) == MakeHeader12(bytes, typ, layer)[..HDR_BASE]
    ensures MakeHeaderLayer(bytes, typ, layer)
      == if layer == '\0' then MakeHeader(bytes, typ) else MakeHeader12(bytes, typ, layer)
  {
    Pad10Field(bytes);
    var h := MakeHeader12(bytes, typ, layer);
    assert h[..WIDTH] == Pad10(bytes);
  }

  /** Decoding as the server does (std::stoi on the first ten bytes, type at
      offset 10) recovers the length and type of every header whose length
      is at most INT_MAX; a larger ten-digit length makes stoi throw. */
  lemma ServerDecodesHeader(bytes: nat, typ: char)
    requires bytes < Pow10(WIDTH)
    ensures var h := MakeHeader(bytes, typ);
      && Stoi(h[..WIDTH]) == (if bytes <= INT_MAX then Ok(bytes as int) else Err(OutOfRange))
      && h[WIDTH] == typ
  {
    HeaderFields(bytes, typ, typ);
    var h := MakeHeader(bytes, typ);
    assert h[..WIDTH] == MakeHeader12(bytes, typ, typ)[..WIDTH];
    StoiOfDigits(h[..WIDTH]);
  }

  /** Decoding as the client does (int() on bytes 0-9, type at byte 10)
      recovers the length and type of every header. */
  lemma ClientDecodesHeader(bytes: nat, typ: char)
    requires bytes < Pow10(WIDTH)
    ensures var h := MakeHeader(bytes, typ);
      PyInt(h[..WIDTH]) == Ok(bytes as int) && h[WIDTH] == typ
  {
    HeaderFields(bytes, typ, typ);
    var h := MakeHeader(bytes, typ);
    assert h[..WIDTH] == MakeHeader12(bytes, typ, typ)[..WIDTH];
    PyIntOfDigits(h[..WIDTH]);
  }

  /** The client's and the server's encoders produce the same bytes for the
      same length, type and layer. */
  lemma EncodersAgree(bytes: nat, typ: char, layer: char)
    ensures MakeHdr(bytes, [typ], None) == MakeHeader(bytes, typ)
    ensures MakeHdr(bytes, [typ], Some([layer])) == MakeHeader12(bytes, typ, layer)
    ensures layer != '\0' ==> MakeHeaderLayer(bytes, typ, layer) == MakeHeader12(bytes, typ, layer)
  {
  }

  /** Distinct (length, type) pairs below 10^10 give distinct headers. */
  lemma HeaderInjective(a: nat, t: char, b: nat, u: char)
    requires a < Pow10(WIDTH) && b < Pow10(WIDTH)
    ensures MakeHeader(a, t) == MakeHeader(b, u) <==> a == b && t == u
  {
    HeaderFields(a, t, t);
    HeaderFields(b, u, u);
    if MakeHeader(a, t) == MakeHeader(b, u) {
      assert MakeHeader12(a, t, t)[..WIDTH] == MakeHeader(a, t)[..WIDTH];
      assert MakeHeader12(b, u, u)[..WIDTH] == MakeHeader(b, u)[..WIDTH];
    }
  }

  /** Drops leading '0's, keeping the last character. */
  function StripZeros(s: string): (t: string)
    requires AllDigits(s) && s != []
    ensures AllDigits(t) && t != [] && |t| <= |s| && s == Zeros(|s| - |t|) + t
    ensures |t| > 1 ==> t[0] != '0'
  {
    if |s| > 1 && s[0] == '0' then
      var t := StripZeros(s[1..]);
      assert s == Zeros(|s| - |t|) + t;
      t
    else s
  }

  /** A digit string without a leading zero is the spelling of its value. */
  lemma {:induction false} ToStringOfValue(s: string)
    requires AllDigits(s) && s != [] && (|s| > 1 ==> s[0] != '0')
    ensures ToString(Value(s)) == s
  {
    if |s| > 1 {
      var p, c := s[..|s| - 1], s[|s| - 1];
      assert Value(p) != 0 by {
        ValueZeroIffZeros(p);
        assert p[0] != '0' && Zeros(|p|)[0] == '0';
      }
      ToStringOfValue(p);
      var v, d := Value(p), DigitValue(c);
      assert Value(s) == 10 * v + d;
      SplitLastDigit(v, d);
      assert ToString(Value(s)) == ToString(v) + [Digit(d)];
      assert s == p + [c];
    }
  }

  /** Appending digit d to a positive number v and splitting it again by
      ten gives back v and d. */
  lemma SplitLastDigit(v: nat, d: nat)
    requires d < 10 && v != 0
    ensures 10 * v + d >= 10 && (10 * v + d) / 10 == v && (10 * v + d) % 10 == d
  {
  }

  /** Every ten-digit field is the encoding of the length it denotes, so
      decoding and re-encoding a header gives back the same bytes. */
  lemma EncodeDecodedHeader(h: string)
    requires |h| == HDR_BASE && AllDigits(h[..WIDTH])
    ensures Value(h[..WIDTH]) < Pow10(WIDTH)
    ensures MakeHeader(Value(h[..WIDTH]), h[WIDTH]) == h
  {
    var f := h[..WIDTH];
    var t := StripZeros(f);
    ValueLeadingZeros(|f| - |t|, t);
    ToStringOfValue(t);
    ToStringLength(Value(f), WIDTH);
    assert h == f + [h[WIDTH]];
  }
}

=== FILE: protocol.dfy ===
/** The two peers against each other: what the coordinator writes the
    client reads back, and what the client writes passes the coordinator's
    checks. */
module Protocol {
  import opened Base
  import opened Decimal
  import opened Frame
  import opened Doubles
  import opened Barrier
  import opened Server
  import opened Client

  // ------------------------------------------------------------------------
  // Single packets

  /** The fields of an 11-byte header at the front of a stream. */
  lemma HeaderInFront(h: seq<char>, tail: seq<char>)
    requires |h| == HDR_BASE
    ensures (h + tail)[..WIDTH] == h[..WIDTH] && (h + tail)[WIDTH] == h[WIDTH]
    ensures (h + tail)[HDR_BASE..] == tail
  {
  }

  /** What follows the layer byte is the payload and then the rest. */
  lemma PayloadInFront(payload: seq<char>, rest: seq<char>)
    ensures ReadPayload(|payload|, payload + rest) == Ok(Parsed(payload, rest))
  {
    if payload != [] {
      assert (payload + rest)[..|payload|] == payload && (payload + rest)[|payload|..] == rest;
    } else {
      assert payload + rest == rest;
    }
  }

  /** Behind a header whose length field int() reads as the payload's
      length, `recv_pkt` reads a packet without a layer byte. */
  lemma RawAfterHeader(h: seq<char>, typ: char, payload: seq<char>, rest: seq<char>)
    requires |h| == HDR_BASE && PyInt(h[..WIDTH]) == Ok(|payload|) && h[WIDTH] == typ
    requires typ != 'z' && !HasLayer(typ)
    ensures ReadPacket(h + (payload + rest)) == Ok(Parsed(Packet(typ, None, payload), rest))
  {
    HeaderInFront(h, payload + rest);
    PayloadInFront(payload, rest);
  }

  /** `recv_pkt` reads a `send_raw` packet of any type without a layer byte
      back as that type and payload. */
  lemma ClientReadsRaw(typ: char, payload: seq<char>, rest: seq<char>)
    requires typ != 'z' && !HasLayer(typ) && |payload| < Pow10(WIDTH)
    ensures ReadPacket(RawPacket(typ, payload) + rest) == Ok(Parsed(Packet(typ, None, payload), rest))
  {
    var h := MakeHeader(|payload|, typ);
    assert |h| == HDR_BASE && PyInt(h[..WIDTH]) == Ok(|payload|) && h[WIDTH] == typ by {
      ClientDecodesHeader(|payload|, typ);
      HeaderLength(|payload|, typ, typ);
    }
    assert RawPacket(typ, payload) + rest == h + (payload + rest);
    RawAfterHeader(h, typ, payload, rest);
  }

  /** Behind a header of type 'z' with a well-formed length field, the
      client stops. */
  lemma AbortAfterHeader(h: seq<char>, tail: seq<char>)
    requires |h| == HDR_BASE && PyInt(h[..WIDTH]).Ok? && h[WIDTH] == 'z'
    ensures ReadPacket(h + tail) == Err(ServerAborted)
  {
    HeaderInFront(h, tail);
  }

  /** A 'z' packet ends the client before anything after its header is
      read. */
  lemma ClientStopsOnAbort(payload: seq<char>, rest: seq<char>)
    requires |payload| < Pow10(WIDTH)
    ensures ReadPacket(RawPacket('z', payload) + rest) == Err(ServerAborted)
  {
    var h := MakeHeader(|payload|, 'z');
    assert |h| == HDR_BASE && PyInt(h[..WIDTH]) == Ok(|payload|) && h[WIDTH] == 'z' by {
      ClientDecodesHeader(|payload|, 'z');
      HeaderLength(|payload|, 'z', 'z');
    }
    AppendAssoc(h, payload, rest);
    AbortAfterHeader(h, payload + rest);
  }

  /** Behind a header whose length field int() reads as the payload's
      length, `recv_pkt` reads the layer byte and the payload of an 'M' or
      'm' packet. */
  lemma VecAfterHeader(h: seq<char>, typ: char, layer: char, payload: seq<char>, rest: seq<char>)
    requires |h| == HDR_BASE && PyInt(h[..WIDTH]) == Ok(|payload|) && h[WIDTH] == typ
    requires HasLayer(typ)
    ensures ReadPacket(h + ([layer] + (payload + rest)))
      == Ok(Parsed(Packet(typ, Some(layer), payload), rest))
  {
    HeaderInFront(h, [layer] + (payload + rest));
    assert ([layer] + (payload + rest))[1..] == payload + rest;
    PayloadInFront(payload, rest);
  }

  /** A `send_vecd` packet is the 11-byte header, the layer byte and the
      vector's bytes. */
  lemma VecPacketLayout(layout: Layout, typ: char, layer: char, v: seq<real>, rest: seq<char>)
    ensures VecPacket(layout, typ, layer, v) + rest
      == MakeHeader(8 * |v|, typ) + ([layer] + (Pack(layout, v) + rest))
  {
    var h, data := MakeHeader(8 * |v|, typ), Pack(layout, v);
    assert MakeHeader12(8 * |v|, typ, layer) == h + [layer];
    AppendAssoc(h + [layer], data, rest);
    AppendAssoc(h, [layer], data + rest);
  }

  /** `recv_pkt` reads a `send_vecd` packet of type 'M' or 'm' back with its
      layer byte and the vector's bytes. */
  lemma ClientReadsVec(layout: Layout, typ: char, layer: char, v: seq<real>, rest: seq<char>)
    requires HasLayer(typ) && 8 * |v| < Pow10(WIDTH)
    ensures ReadPacket(VecPacket(layout, typ, layer, v) + rest)
      == Ok(Parsed(Packet(typ, Some(layer), Pack(layout, v)), rest))
  {
    var n, data := 8 * |v|, Pack(layout, v);
    var h := MakeHeader(n, typ);
    assert |h| == HDR_BASE && PyInt(h[..WIDTH]) == Ok(|data|) && h[WIDTH] == typ by {
      ClientDecodesHeader(n, typ);
      HeaderLength(n, typ, layer);
    }
    VecPacketLayout(layout, typ, layer, v, rest);
    VecAfterHeader(h, typ, layer, data, rest);
  }

  /** Layer ids are single digits: str(lid) is the layer byte, and int()
      reads it back as lid. */
  lemma LayerText(lid: nat)
    requires lid < 10
    ensures ToString(lid) == [LayerDigit(lid)]
    ensures PyInt([LayerDigit(lid)]) == Ok(lid)
  {
    PyIntOfDigits([LayerDigit(lid)]);
    assert [LayerDigit(lid)][..0] == [];
  }

  /** The vector of every layer fits the ten-digit length field and what
      stoi reads. */
  lemma LayerBytesFit(lid: nat)
    requires lid < LAYERS
    ensures 8 * ELEM[lid] <= INT_MAX && 8 * ELEM[lid] < Pow10(WIDTH)
  {
    assert Pow10(WIDTH) == 10000000000;
  }

  /** The client accepts the coordinator's average for the layer it is
      synchronising and recovers the averaged vector. */
  lemma ClientReadsAverage(layout: Layout, lid: nat, avg: seq<real>, rest: seq<char>)
    requires lid < LAYERS && |avg| == ELEM[lid] && RoundTrips(layout, avg)
    ensures ReadAverage(layout, VecPacket(layout, 'm', LayerDigit(lid), avg) + rest, lid, ELEM[lid])
      == Ok(Parsed(avg, rest))
  {
    LayerBytesFit(lid);
    ClientReadsVec(layout, 'm', LayerDigit(lid), avg, rest);
    LayerText(lid);
    UnpackPack(layout, avg);
  }

  /** Behind a well-formed 'M' header, the worker parses the rest. */
  lemma ContributionAfterHeader(layout: Layout, h: seq<char>, sz: int, body: seq<char>, lid: nat)
    requires lid < LAYERS && |h| == HDR_BASE && Stoi(h[..WIDTH]) == Ok(sz) && h[WIDTH] == 'M'
    ensures ParseContribution(layout, h + body, lid) == ParseLayerPayload(layout, sz, body, lid)
  {
    HeaderInFront(h, body);
  }

  /** After the header, the worker accepts the layer byte and payload of a
      client's weights for its layer. */
  lemma ServerReadsWeightBody(layout: Layout, lid: nat, w: seq<real>, rest: seq<char>)
    requires lid < LAYERS && |w| == ELEM[lid] && RoundTrips(layout, w)
    ensures ParseLayerPayload(layout, 8 * |w|, [LayerDigit(lid)] + (Pack(layout, w) + rest), lid)
      == Ok(Parsed(w, rest))
  {
    var n, data := 8 * |w|, Pack(layout, w);
    var body := [LayerDigit(lid)] + (data + rest);
    assert body[1..1 + n] == data && body[1 + n..] == rest;
    UnpackPack(layout, w);
  }

  /** The client's weight packet is the coordinator's 'M' header, the
      layer byte and the weights' bytes. */
  lemma WeightPacketLayout(layout: Layout, lid: nat, w: seq<real>, rest: seq<char>)
    requires lid < LAYERS
    ensures WeightPacket(layout, lid, w) + rest
      == MakeHeader(8 * |w|, 'M') + ([LayerDigit(lid)] + (Pack(layout, w) + rest))
  {
    var n, d, data := 8 * |w|, LayerDigit(lid), Pack(layout, w);
    var h := MakeHeader(n, 'M');
    assert WeightPacket(layout, lid, w) == MakeHdr(n, ['M'], Some([d])) + data by {
      LayerText(lid);
    }
    assert MakeHdr(n, ['M'], Some([d])) == h + [d] by {
      EncodersAgree(n, 'M', d);
    }
    AppendAssoc(h + [d], data, rest);
    AppendAssoc(h, [d], data + rest);
  }

  /** A client's 'M' packet for layer lid, carrying the layer's ELEM[lid]
      weights, passes every check of the worker thread for that layer,
      which recovers the weights. */
  lemma ServerReadsWeights(layout: Layout, lid: nat, w: seq<real>, rest: seq<char>)
    requires lid < LAYERS && |w| == ELEM[lid] && RoundTrips(layout, w)
    ensures ParseContribution(layout, WeightPacket(layout, lid, w) + rest, lid) == Ok(Parsed(w, rest))
  {
    var n := 8 * |w|;
    var h := MakeHeader(n, 'M');
    assert Stoi(h[..WIDTH]) == Ok(n) && h[WIDTH] == 'M' && |h| == HDR_BASE by {
      LayerBytesFit(lid);
      ServerDecodesHeader(n, 'M');
      HeaderLength(n, 'M', 'M');
    }
    var body := [LayerDigit(lid)] + (Pack(layout, w) + rest);
    WeightPacketLayout(layout, lid, w, rest);
    ContributionAfterHeader(layout, h, n, body, lid);
    ServerReadsWeightBody(layout, lid, w, rest);
  }

  // ------------------------------------------------------------------------
  // Handshake

  /** The client's hello passes the coordinator's handshake check. */
  lemma HelloAccepted(rest: seq<char>)
    ensures HandshakeOk(HELLO + rest)
  {
    var h := MakeHeader(0, 'I');
    assert HELLO == h by { EncodersAgree(0, 'I', 'I'); }
    assert |h| == HDR_BASE && Stoi(h[..WIDTH]) == Ok(0) && h[WIDTH] == 'I' by {
      ServerDecodesHeader(0, 'I');
      HeaderLength(0, 'I', 'I');
    }
    HeaderInFront(h, rest);
  }

  /** Among headers whose length field is all digits, the hello is the only
      one the handshake accepts. */
  lemma HandshakeOnlyHello(h: seq<char>)
    requires |h| == HDR_BASE && AllDigits(h[..WIDTH])
    ensures HandshakeOk(h) <==> h == HELLO
  {
    EncodersAgree(0, 'I', 'I');
    if h == HELLO {
      HelloAccepted([]);
      assert h + [] == h;
    }
    if HandshakeOk(h) {
      StoiOfDigits(h[..WIDTH]);
      EncodeDecodedHeader(h);
    }
  }

  // ------------------------------------------------------------------------
  // Setup

  /** Numbers below 10^10 are spelled in at most ten digits. */
  lemma ShortSpelling(n: nat)
    requires n < Pow10(WIDTH)
    ensures |ToString(n)| <= WIDTH
  {
    ToStringLength(n, WIDTH);
  }

  /** An id below 10^10 and its partition file name are spelled in fewer
      than 10^10 bytes. */
  lemma IdSpelling(i: nat)
    requires i < Pow10(WIDTH)
    ensures |ToString(i)| < Pow10(WIDTH) && |PartitionFile(i)| < Pow10(WIDTH)
  {
    assert Pow10(WIDTH) == 10000000000;
    ShortSpelling(i);
    assert |PartitionFile(i)| == |ToString(i)| + 8;
  }

  /** `expect(typ)` on a raw packet of that type returns its payload. */
  lemma ClientExpects(typ: char, payload: seq<char>, rest: seq<char>)
    requires typ != 'z' && !HasLayer(typ) && |payload| < Pow10(WIDTH)
    ensures Expect(RawPacket(typ, payload) + rest, typ) == Ok(Parsed(payload, rest))
  {
    ClientReadsRaw(typ, payload, rest);
  }

  /** Every int epoch count is spelled in fewer than 10^10 bytes, which
      int() reads back. */
  lemma EpochSpelling(nEpochs: int)
    requires INT_MIN <= nEpochs <= INT_MAX
    ensures |IntToString(nEpochs)| < Pow10(WIDTH) && PyInt(IntToString(nEpochs)) == Ok(nEpochs)
  {
    assert Pow10(WIDTH) == 10000000000;
    ShortSpelling(if nEpochs < 0 then -nEpochs else nEpochs);
    PyIntOfIntToString(nEpochs);
  }

  /** The client reads the start packet as an 's' packet. */
  lemma ClientReadsStart(rest: seq<char>)
    ensures ReadPacket(RawPacket('s', []) + rest) == Ok(Parsed(Packet('s', None, []), rest))
  {
    ClientReadsRaw('s', [], rest);
  }

  /** The setup packets in front of a stream, one after the other. */
  lemma Setup3Layout(epochs: string, fname: string, rest: seq<char>)
    ensures Setup3(epochs, fname) + rest
      == RawPacket('e', epochs) + (RawPacket('f', fname) + (RawPacket('s', []) + rest))
  {
    var pe, pf, ps := RawPacket('e', epochs), RawPacket('f', fname), RawPacket('s', []);
    AppendAssoc(pe + pf, ps, rest);
    AppendAssoc(pe, pf, ps + rest);
  }

  /** `ReadConfig` in the three steps the client takes. */
  lemma ConfigSteps(s: seq<char>, cid: int, epochs: string, nEpochs: int, r2: seq<char>,
                    fname: string, r3: seq<char>, rest: seq<char>)
    requires Expect(s, 'e') == Ok(Parsed(epochs, r2)) && PyInt(epochs) == Ok(nEpochs)
    requires Expect(r2, 'f') == Ok(Parsed(fname, r3))
    requires ReadPacket(r3) == Ok(Parsed(Packet('s', None, []), rest))
    ensures ReadConfig(s, cid) == Ok(Parsed(Setup(cid, nEpochs, fname), rest))
  {
  }

  /** The client reads the three setup packets as the epoch count, through
      int(), and the file name. */
  lemma ClientReadsConfig(epochs: string, nEpochs: int, fname: string, cid: int, rest: seq<char>)
    requires |epochs| < Pow10(WIDTH) && PyInt(epochs) == Ok(nEpochs) && |fname| < Pow10(WIDTH)
    ensures ReadConfig(Setup3(epochs, fname) + rest, cid) == Ok(Parsed(Setup(cid, nEpochs, fname), rest))
  {
    var pe, pf, ps := RawPacket('e', epochs), RawPacket('f', fname), RawPacket('s', []);
    var r3 := ps + rest;
    var r2 := pf + r3;
    Setup3Layout(epochs, fname, rest);
    ClientExpects('e', epochs, r2);
    ClientExpects('f', fname, r3);
    ClientReadsStart(rest);
    ConfigSteps(pe + r2, cid, epochs, nEpochs, r2, fname, r3, rest);
  }

  /** `ReadSetup` in the two steps the client takes. */
  lemma SetupSteps(s: seq<char>, cid: int, id: string, r1: seq<char>, st: Setup, rest: seq<char>)
    requires Expect(s, 'i') == Ok(Parsed(id, r1)) && PyInt(id) == Ok(cid)
    requires ReadConfig(r1, cid) == Ok(Parsed(st, rest))
    ensures ReadSetup(s) == Ok(Parsed(st, rest))
  {
  }

  /** The client reads its id packet and the three setup packets as its id,
      the epoch count and its partition file, for every id below 10^10 and
      every int epoch count. */
  lemma ClientReadsSetup(i: nat, nEpochs: int, rest: seq<char>)
    requires i < Pow10(WIDTH) && INT_MIN <= nEpochs <= INT_MAX
    ensures ReadSetup(IdPacket(i) + SetupPackets(nEpochs, i) + rest)
      == Ok(Parsed(Setup(i, nEpochs, PartitionFile(i)), rest))
  {
    var id, fname := ToString(i), PartitionFile(i);
    var r1 := SetupPackets(nEpochs, i) + rest;
    AppendAssoc(IdPacket(i), SetupPackets(nEpochs, i), rest);
    IdSpelling(i);
    ClientExpects('i', id, r1);
    PyIntOfIntToString(i);
    EpochSpelling(nEpochs);
    ClientReadsConfig(IntToString(nEpochs), nEpochs, fname, i, rest);
    SetupSteps(IdPacket(i) + r1, i, id, r1, Setup(i, nEpochs, fname), rest);
  }

  // ------------------------------------------------------------------------
  // Rounds and the end of the run

  /** The averages the client reads back over its first n layer
      synchronisations (round r is layer r % 3, with ELEM[r % 3] weights),
      in order; the first refused reply ends the run. */
  function ReadReplies(layout: Layout, s: seq<char>, n: nat): (r: Result<Parsed<seq<seq<real>>>>)
    ensures r.Ok? ==> |r.value.value| == n
  {
    if n == 0 then Ok(Parsed([], s))
    else match ReadReplies(layout, s, n - 1)
      case Err(e) => Err(e)
      case Ok(p) =>
        var lid := (n - 1) % LAYERS;
        match ReadAverage(layout, p.rest, lid, ELEM[lid])
        case Err(e) => Err(e)
        case Ok(a) => Ok(Parsed(p.value + [a.value], a.rest))
  }

  /** One more round: the replies read so far, then the next layer's. */
  lemma ReadRepliesStep(layout: Layout, s: seq<char>, n: nat, prior: seq<seq<real>>, mid: seq<char>,
                        avg: seq<real>, rest: seq<char>, all: seq<seq<real>>)
    requires ReadReplies(layout, s, n) == Ok(Parsed(prior, mid))
    requires ReadAverage(layout, mid, n % LAYERS, ELEM[n % LAYERS]) == Ok(Parsed(avg, rest))
    requires all == prior + [avg]
    ensures ReadReplies(layout, s, n + 1) == Ok(Parsed(all, rest))
  {
  }

  /** The client reads back every average of a sequence of rounds, in
      order, from the packets the coordinator broadcasts for them. */
  lemma {:induction false} ClientReadsAverages(layout: Layout, avgs: seq<seq<real>>, rest: seq<char>)
    requires forall t :: 0 <= t < |avgs| ==> |avgs[t]| == ELEM[t % LAYERS] && RoundTrips(layout, avgs[t])
    ensures ReadReplies(layout, AveragePackets(layout, avgs) + rest, |avgs|) == Ok(Parsed(avgs, rest))
  {
    if avgs == [] {
      assert AveragePackets(layout, avgs) + rest == rest;
    } else {
      var t := |avgs| - 1;
      var lid := t % LAYERS;
      var prior := avgs[..t];
      FrontLast(avgs);
      var last := VecPacket(layout, 'm', LayerDigit(lid), avgs[t]);
      var s := AveragePackets(layout, avgs) + rest;
      assert s == AveragePackets(layout, prior) + (last + rest) by {
        assert AveragePackets(layout, avgs) == AveragePackets(layout, prior) + last;
        AppendAssoc(AveragePackets(layout, prior), last, rest);
      }
      assert ReadReplies(layout, s, t) == Ok(Parsed(prior, last + rest)) by {
        ClientReadsAverages(layout, prior, last + rest);
      }
      assert ReadAverage(layout, last + rest, lid, ELEM[lid]) == Ok(Parsed(avgs[t], rest)) by {
        ClientReadsAverage(layout, lid, avgs[t], rest);
      }
      ReadRepliesStep(layout, s, t, prior, last + rest, avgs[t], rest, avgs);
    }
  }

  /** The client reads the final 'x' and stops. */
  lemma ClientReadsEnd(rest: seq<char>)
    ensures ReadEnd(RawPacket('x', []) + rest) == Ok(rest)
  {
    ClientReadsRaw('x', [], rest);
  }

  /** The client's whole session after its hello: the setup, one reply per
      layer of every epoch, then the final 'x'. */
  function ReadSession(layout: Layout, s: seq<char>): (r: Result<(Setup, seq<seq<real>>)>)
    ensures r.Ok? ==> |r.value.1| == LAYERS * Count(r.value.0.epochs)
  {
    match ReadSetup(s)
    case Err(e) => Err(e)
    case Ok(st) =>
      match ReadReplies(layout, st.rest, LAYERS * Count(st.value.epochs))
      case Err(e) => Err(e)
      case Ok(p) =>
        match ReadEnd(p.rest)
        case Err(e) => Err(e)
        case Ok(_) => Ok((st.value, p.value))
  }

  /** What the coordinator sends client i in a run that ends normally — its
      id, its setup, the average of every round and the final 'x' — is read
      by the client as exactly its id, the epoch count, its partition file
      and those averages. */
  lemma ClientReadsRun(layout: Layout, i: nat, nEpochs: int, avgs: seq<seq<real>>)
    requires i < Pow10(WIDTH) && INT_MIN <= nEpochs <= INT_MAX
    requires |avgs| == LAYERS * Count(nEpochs)
    requires forall t :: 0 <= t < |avgs| ==> |avgs[t]| == ELEM[t % LAYERS] && RoundTrips(layout, avgs[t])
    ensures ReadSession(layout, IdPacket(i) + SetupPackets(nEpochs, i) + AveragePackets(layout, avgs)
                                + RawPacket('x', []))
      == Ok((Setup(i, nEpochs, PartitionFile(i)), avgs))
  {
    var x := RawPacket('x', []);
    var tail := AveragePackets(layout, avgs) + x;
    var head := IdPacket(i) + SetupPackets(nEpochs, i);
    AppendAssoc(head, AveragePackets(layout, avgs), x);
    ClientReadsSetup(i, nEpochs, tail);
    ClientReadsAverages(layout, avgs, x);
    ClientReadsEnd([]);
    assert x + [] == x;
  }
}

=== FILE: server.dfy ===
/** The coordinator of server.cpp: the packets its two sending helpers
    assemble, the checks a worker thread applies to every contribution, the
    per-layer rounds with their barrier, and the handshake, setup and
    teardown sequence of `main`. */
module Server {
  import opened Base
  import opened Decimal
  import opened Frame
  import opened Channel
  import opened Doubles
  import opened Barrier

  // ------------------------------------------------------------------------
  // Packets

  /** `send_raw`'s packet: the 11-byte header announcing the payload
      length, then the payload. */
  function RawPacket(typ: char, payload: seq<char>): seq<char>
  {
    MakeHeader(|payload|, typ) + payload
  }

  /** `send_vecd`'s packet: the 12-byte header announcing eight bytes per
      double, then the doubles' raw bytes. */
  function VecPacket(layout: Layout, typ: char, layer: char, v: seq<real>): seq<char>
  {
    MakeHeader12(8 * |v|, typ, layer) + Pack(layout, v)
  }

  /** Packet sizes: header plus payload, for every payload whose length
      fits the ten-digit field. */
  lemma PacketLengths(layout: Layout, typ: char, layer: char, payload: seq<char>, v: seq<real>)
    requires |payload| < Pow10(WIDTH) && 8 * |v| < Pow10(WIDTH)
    ensures |RawPacket(typ, payload)| == HDR_BASE + |payload|
    ensures |VecPacket(layout, typ, layer, v)| == HDR_BASE + 1 + 8 * |v|
  {
    HeaderLength(|payload|, typ, layer);
    HeaderLength(8 * |v|, typ, layer);
  }

  /** The size of the averaged-vector packet of layer lid. */
  function AverageLength(lid: nat): nat
    requires lid < LAYERS
  {
    HDR_BASE + 1 + 8 * ELEM[lid]
  }

  lemma AveragePacketLength(layout: Layout, lid: nat, avg: seq<real>)
    requires lid < LAYERS && |avg| == ELEM[lid]
    ensures |VecPacket(layout, 'm', LayerDigit(lid), avg)| == AverageLength(lid)
  {
    assert 8 * ELEM[lid] < Pow10(WIDTH) by {
      assert Pow10(WIDTH) == 10000000000;
    }
    PacketLengths(layout, 'm', LayerDigit(lid), [], avg);
  }


  /** `send_raw(fd, type, payload)`: sends the whole packet or fails. */
  method SendRaw(c: Conn, typ: char, payload: seq<char>) returns (ok: bool)
    modifies c`outbound, c`room
    ensures ok <==> old(c.open && |RawPacket(typ, payload)| <= c.room)
    ensures ok ==> c.outbound == old(c.outbound) + RawPacket(typ, payload)
    ensures ok ==> c.room == old(c.room) - |RawPacket(typ, payload)|
    ensures old(c.room) <= c.room + |RawPacket(typ, payload)|
  {
    var pkt := MakeHeader(|payload|, typ) + payload;
    ok := SendAll(c, pkt);
  }

  /** `send_vecd(fd, type, layer, v)`: sends the whole packet or fails. */
  method SendVecd(c: Conn, layout: Layout, typ: char, layer: char, v: seq<real>) returns (ok: bool)
    modifies c`outbound, c`room
    ensures ok <==> old(c.open && |VecPacket(layout, typ, layer, v)| <= c.room)
    ensures ok ==> c.outbound == old(c.outbound) + VecPacket(layout, typ, layer, v)
    ensures ok ==> c.room == old(c.room) - |VecPacket(layout, typ, layer, v)|
    ensures old(c.room) <= c.room + |VecPacket(layout, typ, layer, v)|
  {
    var pkt := MakeHeader12(8 * |v|, typ, layer) + Pack(layout, v);
    ok := SendAll(c, pkt);
  }

  // ------------------------------------------------------------------------
  // The handshake and the setup packets

  /** What `main` demands of a new connection's first 11 bytes: stoi reads
      0 from the length field and the type is 'I'. */
  predicate HandshakeOk(s: seq<char>)
  {
    |s| >= HDR_BASE && Stoi(s[..WIDTH]) == Ok(0) && s[WIDTH] == 'I'
  }

  /** The reply to the i-th accepted connection: its id, in decimal. */
  function IdPacket(i: nat): seq<char>
  {
    RawPacket('i', ToString(i))
  }

  /** The training data file of client idx. */
  function PartitionFile(idx: nat): string
  {
    "part" + ToString(idx) + ".csv"
  }

  /** The three setup packets: the epoch count, the file name, start. */
  function Setup3(epochs: string, fname: string): seq<char>
  {
    RawPacket('e', epochs) + RawPacket('f', fname) + RawPacket('s', [])
  }

  /** The setup sent to client idx. */
  function SetupPackets(nEpochs: int, idx: nat): seq<char>
  {
    Setup3(IntToString(nEpochs), PartitionFile(idx))
  }

  /** Sends a client its setup packets `e`, `f` and `s`, stopping at the
      first failure. */
  method SendSetup(c: Conn, epochs: string, fname: string) returns (ok: bool)
    modifies c`outbound, c`room
    ensures ok <==> old(c.open && |Setup3(epochs, fname)| <= c.room)
    ensures ok ==> c.outbound == old(c.outbound) + Setup3(epochs, fname)
    ensures ok ==> c.room == old(c.room) - |Setup3(epochs, fname)|
  {
    ghost var e, f, st := RawPacket('e', epochs), RawPacket('f', fname), RawPacket('s', []);
    ghost var out0, room0 := c.outbound, c.room;
    assert Setup3(epochs, fname) == e + f + st;
    assert |st| > 0;
    ok := SendRaw(c, 'e', epochs);
    if !ok {
      return;
    }
    ok := SendRaw(c, 'f', fname);
    if !ok {
      return;
    }
    ok := SendRaw(c, 's', []);
    if ok {
      AppendAssoc(out0 + e, f, st);
      AppendAssoc(out0, e, f + st);
    }
  }

  /** The body of `main`'s accept loop for the i-th connection: read the
      11-byte request, demand that stoi reads 0 from it and that the type is
      'I', then reply with the id. */
  method Greet(c: Conn, i: nat) returns (ok: bool)
    modifies c`inbound, c`outbound, c`room
    ensures ok <==> HandshakeOk(old(c.inbound)) && old(c.open && |IdPacket(i)| <= c.room)
    ensures ok ==> c.inbound == old(c.inbound)[HDR_BASE..] && c.outbound == old(c.outbound) + IdPacket(i)
    ensures ok ==> c.room == old(c.room) - |IdPacket(i)|
  {
    ghost var s := c.inbound;
    var h, _ := ReceiveExact(c, HDR_BASE);
    if h.Err? {
      assert !HandshakeOk(s);
      return false;
    }
    assert h.value[..WIDTH] == s[..WIDTH] && h.value[WIDTH] == s[WIDTH];
    var size := Stoi(h.value[..WIDTH]);
    if size.Err? || h.value[WIDTH] != 'I' || size.value != 0 {
      assert !HandshakeOk(s);
      return false;
    }
    assert HandshakeOk(s);
    ok := SendRaw(c, 'i', ToString(i));
  }

  // ------------------------------------------------------------------------
  // A worker's contribution

  /** Every check `client_thread` applies before its memcpy: a full header
      whose length field stoi reads, type 'M', the layer digit of the layer
      being processed, a length that is not negative and a payload of that
      many bytes. Nothing compares the length with the 8 * ELEM[lid] bytes
      of the vector the memcpy writes into. */
  predicate PassesChecks(s: seq<char>, lid: nat)
    requires lid < LAYERS
  {
    && |s| >= HDR_BASE + 1
    && Stoi(s[..WIDTH]).Ok?
    && s[WIDTH] == 'M'
    && s[HDR_BASE] == LayerDigit(lid)
    && 0 <= Stoi(s[..WIDTH]).value
    && HDR_BASE + 1 + Stoi(s[..WIDTH]).value <= |s|
  }

  /** What a worker reads after a header of type 'M' announcing sz bytes:
      the layer byte, which must be the digit of layer lid, then the
      payload, copied into a zeroed vector of ELEM[lid] doubles. A negative
      length is refused before anything more is read; a payload longer than
      the vector is refused here (see PassesChecks). */
  function ParseLayerPayload(layout: Layout, sz: int, s: seq<char>, lid: nat): (r: Result<Parsed<seq<real>>>)
    requires lid < LAYERS
    ensures r.Ok? <==> 0 <= sz <= 8 * ELEM[lid] && 1 + sz <= |s| && s[0] == LayerDigit(lid)
    ensures r.Ok? ==> |r.value.value| == ELEM[lid] && r.value.rest == s[1 + sz..]
  {
    if s == [] then Err(ConnectionClosed)
    else if s[0] != LayerDigit(lid) then Err(LayerOutOfOrder)
    else if sz < 0 then Err(LengthError)
    else if |s| < 1 + sz then Err(ConnectionClosed)
    else if sz > 8 * ELEM[lid] then Err(PayloadOverrun)
    else Ok(Parsed(Unpack(layout, s[1..1 + sz], ELEM[lid]), s[1 + sz..]))
  }

  /** One contribution as a worker thread reads it from the front of its
      stream: the checks in the order the source applies them, each failure
      being the exception that ends the thread. */
  function ParseContribution(layout: Layout, s: seq<char>, lid: nat): (r: Result<Parsed<seq<real>>>)
    requires lid < LAYERS
    ensures r.Ok? <==> PassesChecks(s, lid) && Stoi(s[..WIDTH]).value <= 8 * ELEM[lid]
    ensures r.Ok? ==> |r.value.value| == ELEM[lid]
    ensures r.Ok? ==> var used := HDR_BASE + 1 + Stoi(s[..WIDTH]).value;
      used <= |s| && r.value.rest == s[used..]
  {
    if |s| < HDR_BASE then Err(ConnectionClosed)
    else match Stoi(s[..WIDTH])
      case Err(e) => Err(e)
      case Ok(sz) =>
        if s[WIDTH] != 'M' then Err(UnexpectedType)
        else ParseLayerPayload(layout, sz, s[HDR_BASE..], lid)
  }

  /** A contribution for layer lid that announces more than the 8 * ELEM[lid]
      bytes of the layer's vector, and no more than stoi reads, passes every
      check of `client_thread`, so the memcpy writes past the vector: for
      layer 2 (32 doubles, 256 bytes) a header announcing 264 bytes followed
      by 264 bytes overruns it by eight. */
  lemma OverrunPassesChecks(lid: nat, payload: seq<char>)
    requires lid < LAYERS && 8 * ELEM[lid] < |payload| <= INT_MAX
    ensures var s := MakeHeader12(|payload|, 'M', LayerDigit(lid)) + payload;
      && PassesChecks(s, lid) && Stoi(s[..WIDTH]) == Ok(|payload|)
      && forall layout :: ParseContribution(layout, s, lid) == Err(PayloadOverrun)
  {
    var n, d := |payload|, LayerDigit(lid);
    assert n < Pow10(WIDTH) by {
      assert Pow10(WIDTH) == 10000000000;
    }
    HeaderFields(n, 'M', d);
    ServerDecodesHeader(n, 'M');
    var h := MakeHeader12(n, 'M', d);
    assert h[..WIDTH] == MakeHeader(n, 'M')[..WIDTH];
    OverrunAfterHeader(lid, h, payload);
  }

  /** The overrun after any twelve-byte header that announces the payload's
      length, type 'M' and the layer's digit. */
  lemma OverrunAfterHeader(lid: nat, h: seq<char>, payload: seq<char>)
    requires lid < LAYERS && 8 * ELEM[lid] < |payload|
    requires |h| == HDR_BASE + 1 && Stoi(h[..WIDTH]) == Ok(|payload|)
    requires h[WIDTH] == 'M' && h[HDR_BASE] == LayerDigit(lid)
    ensures var s := h + payload;
      && PassesChecks(s, lid) && Stoi(s[..WIDTH]) == Ok(|payload|)
      && forall layout :: ParseContribution(layout, s, lid) == Err(PayloadOverrun)
  {
    var s := h + payload;
    assert s[..WIDTH] == h[..WIDTH] && s[WIDTH] == 'M';
    assert s[HDR_BASE..][0] == h[HDR_BASE];
  }

  /** The layer byte and payload of one contribution, received with
      receive_exact after a header announcing sz bytes. */
  method ReceiveLayerPayload(c: Conn, layout: Layout, sz: int, lid: nat) returns (r: Result<seq<real>>)
    requires lid < LAYERS
    modifies c`inbound
    ensures match ParseLayerPayload(layout, sz, old(c.inbound), lid)
      case Ok(p) => r == Ok(p.value) && c.inbound == p.rest
      case Err(e) => r == Err(e)
  {
    ghost var s := c.inbound;
    var layer, _ := ReceiveExact(c, 1);
    if layer.Err? {
      return Err(layer.error);
    }
    if layer.value[0] != LayerDigit(lid) {
      return Err(LayerOutOfOrder);
    }
    if sz < 0 {
      return Err(LengthError);
    }
    var data, _ := ReceiveExact(c, sz);
    if data.Err? {
      assert |s| < 1 + sz;
      return Err(data.error);
    }
    assert data.value == s[1..1 + sz] && c.inbound == s[1 + sz..];
    if sz > 8 * ELEM[lid] {
      return Err(PayloadOverrun);
    }
    r := Ok(Unpack(layout, data.value, ELEM[lid]));
  }

  /** The receiving side of one `client_thread` step: receive_exact of the
      header, stoi, the type check, then the layer byte and the payload. */
  method ReceiveContribution(c: Conn, layout: Layout, lid: nat) returns (r: Result<seq<real>>)
    requires lid < LAYERS
    modifies c`inbound
    ensures match ParseContribution(layout, old(c.inbound), lid)
      case Ok(p) => r == Ok(p.value) && c.inbound == p.rest
      case Err(e) => r == Err(e)
  {
    ghost var s := c.inbound;
    var h, _ := ReceiveExact(c, HDR_BASE);
    if h.Err? {
      return Err(h.error);
    }
    assert h.value[..WIDTH] == s[..WIDTH] && h.value[WIDTH] == s[WIDTH];
    var size := Stoi(h.value[..WIDTH]);
    if size.Err? {
      return Err(size.error);
    }
    if h.value[WIDTH] != 'M' {
      return Err(UnexpectedType);
    }
    r := ReceiveLayerPayload(c, layout, size.value, lid);
  }

  // ------------------------------------------------------------------------
  // Rounds

  /** The bytes each connection will still deliver. */
  ghost function Inbounds(cs: seq<Conn>): (ss: seq<seq<char>>)
    reads cs
    ensures |ss| == |cs| && forall k :: 0 <= k < |cs| ==> ss[k] == cs[k].inbound
  {
    seq(|cs|, k requires 0 <= k < |cs| reads cs => cs[k].inbound)
  }

  /** Every stream starts with a contribution for layer lid that the worker
      accepts. */
  predicate AllParse(layout: Layout, streams: seq<seq<char>>, lid: nat)
    requires lid < LAYERS
  {
    forall k :: 0 <= k < |streams| ==> ParseContribution(layout, streams[k], lid).Ok?
  }

  /** The contributions of a round, by worker. */
  function Contributions(layout: Layout, streams: seq<seq<char>>, lid: nat): (ms: seq<seq<real>>)
    requires lid < LAYERS && AllParse(layout, streams, lid)
    ensures |ms| == |streams| && Uniform(ms, ELEM[lid])
  {
    seq(|streams|, k requires 0 <= k < |streams| => ParseContribution(layout, streams[k], lid).value.value)
  }

  /** What each stream holds after its contribution. */
  function Rests(layout: Layout, streams: seq<seq<char>>, lid: nat): (rs: seq<seq<char>>)
    requires lid < LAYERS && AllParse(layout, streams, lid)
    ensures |rs| == |streams|
  {
    seq(|streams|, k requires 0 <= k < |streams| => ParseContribution(layout, streams[k], lid).value.rest)
  }

  /** The averages broadcast so far and the streams left to read. */
  datatype Progress = Progress(averages: seq<seq<real>>, streams: seq<seq<char>>)

  /** The outcome of the first `rounds` rounds (epoch after epoch, layers
      0, 1, 2 within an epoch) when no send fails: the average of each
      round, or None once some worker's contribution is refused. */
  function Schedule(layout: Layout, streams: seq<seq<char>>, rounds: nat): (s: Option<Progress>)
    requires |streams| > 0
    ensures s.Some? ==> |s.value.averages| == rounds && |s.value.streams| == |streams|
    ensures s.Some? ==> forall t :: 0 <= t < rounds ==> |s.value.averages[t]| == ELEM[t % LAYERS]
  {
    if rounds == 0 then Some(Progress([], streams))
    else match Schedule(layout, streams, rounds - 1)
      case None => None
      case Some(p) =>
        var lid := (rounds - 1) % LAYERS;
        if AllParse(layout, p.streams, lid) then
          var avg := Mean(Contributions(layout, p.streams, lid), ELEM[lid], |p.streams|);
          Some(Progress(p.averages + [avg], Rests(layout, p.streams, lid)))
        else None
  }

  /** The averaged-vector packets of consecutive rounds, as every client
      receives them. */
  function AveragePackets(layout: Layout, averages: seq<seq<real>>): seq<char>
  {
    if averages == [] then []
    else
      var t := |averages| - 1;
      AveragePackets(layout, averages[..t]) + VecPacket(layout, 'm', LayerDigit(t % LAYERS), averages[t])
  }

  /** The bytes the broadcasts of the first r rounds take on every
      connection: one averaged-vector packet of layer t % 3 per round t. */
  function RoundsBytes(r: nat): nat
  {
    if r == 0 then 0 else RoundsBytes(r - 1) + AverageLength((r - 1) % LAYERS)
  }

  /** The packets of the averages a schedule produces take exactly
      RoundsBytes of their rounds. */
  lemma {:induction false} AveragePacketsLength(layout: Layout, averages: seq<seq<real>>)
    requires forall t :: 0 <= t < |averages| ==> |averages[t]| == ELEM[t % LAYERS]
    ensures |AveragePackets(layout, averages)| == RoundsBytes(|averages|)
  {
    if averages != [] {
      var t := |averages| - 1;
      AveragePacketsLength(layout, averages[..t]);
      AveragePacketLength(layout, t % LAYERS, averages[t]);
    }
  }

  /** More rounds never take fewer bytes. */
  lemma {:induction false} RoundsBytesGrow(r: nat, n: nat)
    requires r <= n
    ensures RoundsBytes(r) <= RoundsBytes(n)
  {
    if r < n {
      RoundsBytesGrow(r, n - 1);
    }
  }

  /** Once a round refuses a contribution, no later round is reached. */
  lemma {:induction false} ScheduleStaysRefused(layout: Layout, streams: seq<seq<char>>, r: nat, n: nat)
    requires |streams| > 0 && r <= n && Schedule(layout, streams, r).None?
    ensures Schedule(layout, streams, n).None?
    decreases n - r
  {
    if r < n {
      assert Schedule(layout, streams, r + 1).None?;
      ScheduleStaysRefused(layout, streams, r + 1, n);
    }
  }

  /** How many times a loop `for (i = 0; i < n; ++i)` runs. */
  function Count(n: int): nat
  {
    if n > 0 then n else 0
  }

  // ------------------------------------------------------------------------
  // Loops over the registered connections

  /** `main`'s accept loop: the connection accepted i-th is greeted with id
      i; the first failure ends the loop, its exception escaping `main`. */
  method Handshake(conns: seq<Conn>) returns (ok: bool)
    requires Distinct(conns)
    modifies conns
    ensures ok <==> forall k :: 0 <= k < |conns| ==>
      HandshakeOk(old(conns[k].inbound)) && old(conns[k].open && |IdPacket(k)| <= conns[k].room)
    ensures ok ==> forall k :: 0 <= k < |conns| ==>
      && conns[k].inbound == old(conns[k].inbound)[HDR_BASE..]
      && conns[k].outbound == old(conns[k].outbound) + IdPacket(k)
      && conns[k].room == old(conns[k].room) - |IdPacket(k)|
    ensures forall k :: 0 <= k < |conns| ==> conns[k].open == old(conns[k].open)
  {
    var i := 0;
    while i < |conns|
      invariant 0 <= i <= |conns|
      invariant forall k :: 0 <= k < i ==>
        HandshakeOk(old(conns[k].inbound)) && old(conns[k].open && |IdPacket(k)| <= conns[k].room)
      invariant forall k :: 0 <= k < i ==>
        && conns[k].inbound == old(conns[k].inbound)[HDR_BASE..]
        && conns[k].outbound == old(conns[k].outbound) + IdPacket(k)
        && conns[k].room == old(conns[k].room) - |IdPacket(k)|
      invariant forall k :: i <= k < |conns| ==>
        && conns[k].inbound == old(conns[k].inbound)
        && conns[k].outbound == old(conns[k].outbound)
        && conns[k].room == old(conns[k].room)
      invariant forall k :: 0 <= k < |conns| ==> conns[k].open == old(conns[k].open)
    {
      assert forall k :: 0 <= k < |conns| && k != i ==> conns[k] != conns[i];
      var greeted := Greet(conns[i], i);
      if !greeted {
        return false;
      }
      i := i + 1;
    }
    ok := true;
  }

  /** Step 4 of `main`: every client, in registry order, gets `e`, `f` and
      `s`; the first failure ends the loop, its exception escaping `main`. */
  method SetupAll(conns: seq<Conn>, epochs: string) returns (ok: bool)
    requires Distinct(conns)
    modifies conns
    ensures ok <==> forall k :: 0 <= k < |conns| ==> old(conns[k].open && |Setup3(epochs, PartitionFile(k))| <= conns[k].room)
    ensures ok ==> forall k :: 0 <= k < |conns| ==>
      conns[k].outbound == old(conns[k].outbound) + Setup3(epochs, PartitionFile(k))
    ensures ok ==> forall k :: 0 <= k < |conns| ==>
      conns[k].room == old(conns[k].room) - |Setup3(epochs, PartitionFile(k))|
    ensures forall k :: 0 <= k < |conns| ==>
      conns[k].inbound == old(conns[k].inbound) && conns[k].open == old(conns[k].open)
  {
    var idx := 0;
    while idx < |conns|
      invariant 0 <= idx <= |conns|
      invariant forall k :: 0 <= k < idx ==>
        var p := Setup3(epochs, PartitionFile(k));
        && old(conns[k].open && |p| <= conns[k].room)
        && conns[k].outbound == old(conns[k].outbound) + p
        && conns[k].room == old(conns[k].room) - |p|
      invariant forall k :: idx <= k < |conns| ==>
        conns[k].outbound == old(conns[k].outbound) && conns[k].room == old(conns[k].room)
      invariant forall k :: 0 <= k < |conns| ==>
        conns[k].inbound == old(conns[k].inbound) && conns[k].open == old(conns[k].open)
    {
      assert forall k :: 0 <= k < |conns| && k != idx ==> conns[k] != conns[idx];
      ok := SendSetup(conns[idx], epochs, PartitionFile(idx));
      if !ok {
        return;
      }
      idx := idx + 1;
    }
    ok := true;
  }

  /** The completer's broadcast: `send_vecd` of the average to every client
      in registry order; the first failure ends it, its exception ending
      the thread. */
  method BroadcastAverage(conns: seq<Conn>, layout: Layout, lid: nat, avg: seq<real>) returns (ok: bool)
    requires Distinct(conns) && lid < LAYERS
    modifies conns
    ensures ok <==> forall k :: 0 <= k < |conns| ==>
      old(conns[k].open && |VecPacket(layout, 'm', LayerDigit(lid), avg)| <= conns[k].room)
    ensures ok ==> forall k :: 0 <= k < |conns| ==>
      conns[k].outbound == old(conns[k].outbound) + VecPacket(layout, 'm', LayerDigit(lid), avg)
    ensures ok ==> forall k :: 0 <= k < |conns| ==>
      conns[k].room == old(conns[k].room) - |VecPacket(layout, 'm', LayerDigit(lid), avg)|
    ensures forall k :: 0 <= k < |conns| ==>
      old(conns[k].room) <= conns[k].room + |VecPacket(layout, 'm', LayerDigit(lid), avg)|
    ensures forall k :: 0 <= k < |conns| ==>
      conns[k].inbound == old(conns[k].inbound) && conns[k].open == old(conns[k].open)
  {
    ghost var p := VecPacket(layout, 'm', LayerDigit(lid), avg);
    for k := 0 to |conns|
      invariant forall j :: 0 <= j < k ==>
        && old(conns[j].open && |p| <= conns[j].room)
        && conns[j].outbound == old(conns[j].outbound) + p
        && conns[j].room == old(conns[j].room) - |p|
      invariant forall j :: k <= j < |conns| ==>
        conns[j].outbound == old(conns[j].outbound) && conns[j].room == old(conns[j].room)
      invariant forall j :: 0 <= j < |conns| ==>
        conns[j].inbound == old(conns[j].inbound) && conns[j].open == old(conns[j].open)
    {
      assert forall j :: 0 <= j < |conns| && j != k ==> conns[j] != conns[k];
      ok := SendVecd(conns[k], layout, 'm', LayerDigit(lid), avg);
      if !ok {
        return;
      }
    }
    ok := true;
  }

  /** The end of the run: `send_raw(fd, typ)` then `close(fd)` for every
      client in registry order ('z' in broadcast_abort, 'x' in step 6 of
      `main`); a failed send is an exception escaping `main`. */
  method Farewell(conns: seq<Conn>, typ: char) returns (ok: bool)
    requires Distinct(conns)
    modifies conns
    ensures ok <==> forall k :: 0 <= k < |conns| ==> old(conns[k].open && HDR_BASE <= conns[k].room)
    ensures ok ==> forall k :: 0 <= k < |conns| ==> !conns[k].open
    ensures ok ==> forall k :: 0 <= k < |conns| ==> conns[k].outbound == old(conns[k].outbound) + RawPacket(typ, [])
    ensures forall k :: 0 <= k < |conns| ==> conns[k].inbound == old(conns[k].inbound)
  {
    PacketLengths(Layout(_ => ZeroBytes(8), _ => 0.0), typ, typ, [], []);
    for k := 0 to |conns|
      invariant forall j :: 0 <= j < k ==> old(conns[j].open && HDR_BASE <= conns[j].room)
      invariant forall j :: 0 <= j < k ==>
        conns[j].outbound == old(conns[j].outbound) + RawPacket(typ, []) && !conns[j].open
      invariant forall j :: k <= j < |conns| ==>
        conns[j].outbound == old(conns[j].outbound) && conns[j].room == old(conns[j].room)
        && conns[j].open == old(conns[j].open)
      invariant forall j :: 0 <= j < |conns| ==> conns[j].inbound == old(conns[j].inbound)
    {
      assert forall j :: 0 <= j < |conns| && j != k ==> conns[j] != conns[k];
      ok := SendRaw(conns[k], typ, []);
      if !ok {
        return;
      }
      conns[k].Close();
    }
    ok := true;
  }

  /** The completer's part of a `client_thread` step: average the full
      buffer, broadcast the average, then clear the buffer. A failed send
      skips the clear. */
  method Complete(conns: seq<Conn>, layout: Layout, buffers: CollectionBuffers, lid: nat) returns (ok: bool)
    requires Distinct(conns) && lid < LAYERS
    requires buffers.Valid() && buffers.clients == |buffers.buf[lid]| == |conns| > 0
    modifies buffers, conns
    ensures buffers.Valid()
    ensures ok <==> forall k :: 0 <= k < |conns| ==> old(conns[k].open && AverageLength(lid) <= conns[k].room)
    ensures ok ==> buffers.buf == old(buffers.buf)[lid := []]
    ensures ok ==> forall k :: 0 <= k < |conns| ==>
      conns[k].outbound == old(conns[k].outbound)
        + VecPacket(layout, 'm', LayerDigit(lid), Mean(old(buffers.buf[lid]), ELEM[lid], |conns|))
    ensures ok ==> forall k :: 0 <= k < |conns| ==> conns[k].room == old(conns[k].room) - AverageLength(lid)
    ensures forall k :: 0 <= k < |conns| ==> old(conns[k].room) <= conns[k].room + AverageLength(lid)
    ensures forall k :: 0 <= k < |conns| ==>
      conns[k].inbound == old(conns[k].inbound) && conns[k].open == old(conns[k].open)
  {
    var avg := buffers.Average(lid);
    assert avg == Mean(buffers.buf[lid], ELEM[lid], |conns|);
    AveragePacketLength(layout, lid, avg);
    ok := BroadcastAverage(conns, layout, lid, avg);
    if ok {
      buffers.Clear(lid);
    }
  }

  /** Once every worker has deposited, in arrival order, the contribution
      its stream starts with, every stream parses, every stream has moved
      past its contribution, and the buffer's average is the average of the
      contributions by worker. */
  lemma {:induction false} MeanOfArrivals(layout: Layout, streams: seq<seq<char>>, lid: nat,
                                          outcomes: seq<Result<Parsed<seq<real>>>>,
                                          order: seq<nat>, got: seq<seq<real>>, cur: seq<seq<char>>)
    requires lid < LAYERS && |streams| > 0 && IsArrivalOrder(order, |streams|)
    requires |got| == |order| == |streams| == |outcomes| == |cur|
    requires forall k :: 0 <= k < |streams| ==> outcomes[k] == ParseContribution(layout, streams[k], lid)
    requires forall t :: 0 <= t < |got| ==>
      order[t] < |streams| && outcomes[order[t]] == Ok(Parsed(got[t], cur[order[t]]))
    ensures AllParse(layout, streams, lid)
    ensures cur == Rests(layout, streams, lid)
    ensures Uniform(got, ELEM[lid])
    ensures Mean(got, ELEM[lid], |streams|) == Mean(Contributions(layout, streams, lid), ELEM[lid], |streams|)
  {
    ArrivalOrderFacts(order, |streams|);
    forall k | 0 <= k < |streams|
      ensures ParseContribution(layout, streams[k], lid).Ok? && ParseContribution(layout, streams[k], lid).value.rest == cur[k]
    {
      assert k in order;
      var t :| 0 <= t < |order| && order[t] == k;
    }
    var ms := Contributions(layout, streams, lid);
    assert got == Reorder(ms, order);
    MeanArrivalOrder(ms, ELEM[lid], order);
  }

  /** What each connection has sent, how much more its peer accepts, and
      whether it is open: the part of a connection a receive leaves alone. */
  ghost function Egress(cs: seq<Conn>): (es: seq<(seq<char>, nat, bool)>)
    reads cs
    ensures |es| == |cs|
    ensures forall k :: 0 <= k < |cs| ==> es[k] == (cs[k].outbound, cs[k].room, cs[k].open)
  {
    seq(|cs|, k requires 0 <= k < |cs| reads cs => (cs[k].outbound, cs[k].room, cs[k].open))
  }

  /** A worker's turn on its connection `conns[w]`: it receives and checks
      its client's contribution, and an accepted one goes into the layer's
      buffer under the lock, `listo` telling whether it filled the buffer.
      The registry sees only that connection's stream advance. */
  method Arrive(conns: seq<Conn>, layout: Layout, buffers: CollectionBuffers, w: nat, lid: nat)
    returns (r: Result<seq<real>>, listo: bool)
    requires Distinct(conns) && w < |conns| && lid < LAYERS
    requires buffers.Valid() && |buffers.buf[lid]| < buffers.clients
    modifies conns[w], buffers
    ensures match ParseContribution(layout, old(conns[w].inbound), lid)
      case Ok(p) =>
        && r == Ok(p.value) && Inbounds(conns) == old(Inbounds(conns))[w := p.rest]
        && buffers.Valid() && buffers.buf == old(buffers.buf)[lid := old(buffers.buf[lid]) + [p.value]]
        && (listo <==> |old(buffers.buf[lid])| + 1 == buffers.clients)
      case Err(e) => r == Err(e) && unchanged(buffers)
    ensures Egress(conns) == old(Egress(conns))
  {
    ghost var inb, eg := Inbounds(conns), Egress(conns);
    ghost var o := ParseContribution(layout, conns[w].inbound, lid);
    r := ReceiveContribution(conns[w], layout, lid);
    assert Egress(conns) == eg;
    listo := false;
    if r.Ok? {
      assert Inbounds(conns) == inb[w := o.value.rest] by {
        assert forall k :: 0 <= k < |conns| && k != w ==> conns[k] != conns[w];
      }
      ghost var inb' := Inbounds(conns);
      listo := buffers.Deposit(lid, r.value);
      assert Inbounds(conns) == inb' && Egress(conns) == eg;
    }
  }

  /** The bookkeeping of one arrival: worker order[j]'s contribution m is
      recorded and its stream advanced past it; no other stream moves. */
  lemma ArrivalStep(outcomes: seq<Result<Parsed<seq<real>>>>, streams: seq<seq<char>>, order: seq<nat>,
                    j: nat, got: seq<seq<real>>, cur: seq<seq<char>>, m: seq<real>)
    requires |streams| == |cur| == |outcomes| == |order| && j < |order| && |got| == j
    requires forall t :: 0 <= t < |order| ==> order[t] < |order|
    requires forall s, t :: 0 <= s < t < |order| ==> order[s] != order[t]
    requires forall t :: 0 <= t < j ==> outcomes[order[t]] == Ok(Parsed(got[t], cur[order[t]]))
    requires forall t :: j <= t < |order| ==> cur[order[t]] == streams[order[t]]
    requires outcomes[order[j]].Ok? && outcomes[order[j]].value.value == m
    ensures var cur', got' := cur[order[j] := outcomes[order[j]].value.rest], got + [m];
      && (forall t :: 0 <= t <= j ==> outcomes[order[t]] == Ok(Parsed(got'[t], cur'[order[t]])))
      && (forall t :: j < t < |order| ==> cur'[order[t]] == streams[order[t]])
  {
  }

  /** Worker order[j]'s turn in a round whose first j arrivals have
      deposited `got` and left the streams at `cur`: on success the record
      grows by this arrival; a refusal means some stream does not parse. */
  method TakeTurn(conns: seq<Conn>, layout: Layout, buffers: CollectionBuffers, lid: nat, order: seq<nat>, j: nat,
                  ghost streams: seq<seq<char>>, ghost outcomes: seq<Result<Parsed<seq<real>>>>,
                  ghost got: seq<seq<real>>, ghost cur: seq<seq<char>>)
    returns (r: Result<seq<real>>, listo: bool)
    requires Distinct(conns) && lid < LAYERS
    requires |order| == |conns| == |streams| == |outcomes| == |cur| && j < |order| && |got| == j
    requires forall t :: 0 <= t < |order| ==> order[t] < |order|
    requires forall s, t :: 0 <= s < t < |order| ==> order[s] != order[t]
    requires buffers.Valid() && buffers.clients == |conns| && buffers.buf[lid] == got
    requires Inbounds(conns) == cur
    requires forall k :: 0 <= k < |streams| ==> outcomes[k] == ParseContribution(layout, streams[k], lid)
    requires forall t :: 0 <= t < j ==> outcomes[order[t]] == Ok(Parsed(got[t], cur[order[t]]))
    requires forall t :: j <= t < |order| ==> cur[order[t]] == streams[order[t]]
    modifies conns, buffers
    ensures Egress(conns) == old(Egress(conns))
    ensures r.Err? ==> !AllParse(layout, streams, lid) && unchanged(buffers)
    ensures r.Ok? ==> outcomes[order[j]].Ok? && r.value == outcomes[order[j]].value.value
    ensures r.Ok? ==>
      var cur', got' := cur[order[j] := outcomes[order[j]].value.rest], got + [r.value];
      && buffers.Valid() && buffers.buf == old(buffers.buf)[lid := got'] && Inbounds(conns) == cur'
      && (listo <==> j + 1 == |conns|)
      && (forall t :: 0 <= t <= j ==> outcomes[order[t]] == Ok(Parsed(got'[t], cur'[order[t]])))
      && (forall t :: j < t < |order| ==> cur'[order[t]] == streams[order[t]])
  {
    var w := order[j];
    ghost var o := outcomes[w];
    assert o == ParseContribution(layout, conns[w].inbound, lid);
    r, listo := Arrive(conns, layout, buffers, w, lid);
    if r.Err? {
      assert !AllParse(layout, streams, lid) by { assert o.Err?; }
      return;
    }
    assert o.Ok? && r.value == o.value.value;
    ArrivalStep(outcomes, streams, order, j, got, cur, r.value);
  }

  /** The turns of a round in arrival order, up to the first refusal: on
      success `got` holds the deposits in arrival order and `cur` the
      streams after them. */
  method TakeTurns(conns: seq<Conn>, layout: Layout, buffers: CollectionBuffers, lid: nat, order: seq<nat>,
                   ghost outcomes: seq<Result<Parsed<seq<real>>>>)
    returns (ok: bool, listo: bool, ghost got: seq<seq<real>>, ghost cur: seq<seq<char>>)
    requires Distinct(conns) && lid < LAYERS
    requires buffers.Valid() && buffers.clients == |conns| > 0 && buffers.buf[lid] == []
    requires |order| == |conns| == |outcomes|
    requires forall t :: 0 <= t < |order| ==> order[t] < |order|
    requires forall s, t :: 0 <= s < t < |order| ==> order[s] != order[t]
    requires forall k :: 0 <= k < |conns| ==> outcomes[k] == ParseContribution(layout, conns[k].inbound, lid)
    modifies buffers, conns
    ensures buffers.Valid() && Egress(conns) == old(Egress(conns))
    ensures !ok ==> !AllParse(layout, old(Inbounds(conns)), lid) && buffers.buf == old(buffers.buf)[lid := buffers.buf[lid]]
    ensures ok ==>
      && listo && |got| == |order| == |cur| && buffers.buf == old(buffers.buf)[lid := got] && Inbounds(conns) == cur
      && forall t :: 0 <= t < |got| ==> order[t] < |cur| && outcomes[order[t]] == Ok(Parsed(got[t], cur[order[t]]))
  {
    var n := |conns|;
    ghost var streams, egress := Inbounds(conns), Egress(conns);
    cur, got := streams, [];
    listo := false;
    for j := 0 to n
      invariant buffers.Valid() && |got| == j && buffers.buf == old(buffers.buf)[lid := got]
      invariant 0 < j ==> (listo <==> j == n)
      invariant Inbounds(conns) == cur && |cur| == n
      invariant forall t :: 0 <= t < j ==> outcomes[order[t]] == Ok(Parsed(got[t], cur[order[t]]))
      invariant forall t :: j <= t < n ==> cur[order[t]] == streams[order[t]]
      invariant Egress(conns) == egress
    {
      var r;
      r, listo := TakeTurn(conns, layout, buffers, lid, order, j, streams, outcomes, got, cur);
      if r.Err? {
        return false, false, got, cur;
      }
      cur := cur[order[j] := outcomes[order[j]].value.rest];
      got := got + [r.value];
    }
    ok := true;
  }

  /** The workers' part of a round of layer lid: each worker, in arrival
      order, receives and checks its client's contribution and deposits it
      under the lock, `listo` telling it whether its deposit filled the
      buffer. The first refused contribution ends the round. */
  method Collect(conns: seq<Conn>, layout: Layout, buffers: CollectionBuffers, lid: nat, order: seq<nat>)
    returns (ok: bool, listo: bool)
    requires Distinct(conns) && lid < LAYERS
    requires buffers.Valid() && buffers.clients == |conns| > 0 && buffers.buf[lid] == []
    requires IsArrivalOrder(order, |conns|)
    modifies buffers, conns
    ensures buffers.Valid() && buffers.buf == old(buffers.buf)[lid := buffers.buf[lid]]
    ensures ok <==> AllParse(layout, old(Inbounds(conns)), lid)
    ensures ok ==>
      && AllParse(layout, old(Inbounds(conns)), lid)
      && listo && |buffers.buf[lid]| == |conns|
      && Inbounds(conns) == Rests(layout, old(Inbounds(conns)), lid)
      && Mean(buffers.buf[lid], ELEM[lid], |conns|)
         == Mean(Contributions(layout, old(Inbounds(conns)), lid), ELEM[lid], |conns|)
    ensures Egress(conns) == old(Egress(conns))
  {
    var n := |conns|;
    ArrivalOrderFacts(order, n);
    ghost var streams := Inbounds(conns);
    ghost var outcomes := seq(n, k requires 0 <= k < n => ParseContribution(layout, streams[k], lid));
    ghost var got, cur;
    ok, listo, got, cur := TakeTurns(conns, layout, buffers, lid, order, outcomes);
    if ok {
      MeanOfArrivals(layout, streams, lid, outcomes, order, got, cur);
    }
  }

  /** One round of layer lid: the workers' deposits, then the completer's
      average and broadcast. The first failure ends the round with `ok`
      false. */
  method RunRound(conns: seq<Conn>, layout: Layout, buffers: CollectionBuffers, lid: nat, order: seq<nat>)
    returns (ok: bool)
    requires Distinct(conns) && lid < LAYERS
    requires buffers.Valid() && buffers.clients == |conns| > 0 && buffers.buf[lid] == []
    requires IsArrivalOrder(order, |conns|)
    modifies buffers, conns
    ensures buffers.Valid()
    ensures ok <==>
      && AllParse(layout, old(Inbounds(conns)), lid)
      && forall k :: 0 <= k < |conns| ==> old(conns[k].open && AverageLength(lid) <= conns[k].room)
    ensures ok ==>
      && AllParse(layout, old(Inbounds(conns)), lid)
      && Inbounds(conns) == Rests(layout, old(Inbounds(conns)), lid)
      && buffers.buf == old(buffers.buf)
      && forall k :: 0 <= k < |conns| ==>
        conns[k].outbound == old(conns[k].outbound)
          + VecPacket(layout, 'm', LayerDigit(lid),
              Mean(Contributions(layout, old(Inbounds(conns)), lid), ELEM[lid], |conns|))
    ensures ok ==> forall k :: 0 <= k < |conns| ==> conns[k].room == old(conns[k].room) - AverageLength(lid)
    ensures forall k :: 0 <= k < |conns| ==> old(conns[k].room) <= conns[k].room + AverageLength(lid)
    ensures forall k :: 0 <= k < |conns| ==> conns[k].open == old(conns[k].open)
  {
    var listo;
    ok, listo := Collect(conns, layout, buffers, lid, order);
    if ok && listo {
      ok := Complete(conns, layout, buffers, lid);
    }
  }

  /** A round that every stream gets through extends the schedule by that
      round's average, and every client's packets by its broadcast. */
  lemma ScheduleStep(layout: Layout, streams: seq<seq<char>>, r: nat, prog: Progress) returns (next: Progress)
    requires |streams| > 0 && Schedule(layout, streams, r) == Some(prog)
    requires AllParse(layout, prog.streams, r % LAYERS)
    ensures var lid := r % LAYERS;
      var avg := Mean(Contributions(layout, prog.streams, lid), ELEM[lid], |prog.streams|);
      && Schedule(layout, streams, r + 1) == Some(next)
      && next == Progress(prog.averages + [avg], Rests(layout, prog.streams, lid))
      && AveragePackets(layout, next.averages)
         == AveragePackets(layout, prog.averages) + VecPacket(layout, 'm', LayerDigit(lid), avg)
  {
    var lid := r % LAYERS;
    var avg := Mean(Contributions(layout, prog.streams, lid), ELEM[lid], |prog.streams|);
    next := Progress(prog.averages + [avg], Rests(layout, prog.streams, lid));
    assert next.averages[..r] == prog.averages;
  }

  /** Round r of the training phase, as a step of the schedule: the
      streams advance and every client's packets grow by the round's
      average, as `Schedule` and `AveragePackets` predict. */
  method NextRound(conns: seq<Conn>, layout: Layout, buffers: CollectionBuffers, order: seq<nat>,
                   ghost streams: seq<seq<char>>, ghost init: seq<seq<char>>, ghost rooms: seq<nat>,
                   r: nat, ghost prog: Progress)
    returns (ok: bool, ghost next: Progress)
    requires Distinct(conns) && |conns| == |streams| == |init| > 0 && IsArrivalOrder(order, |conns|)
    requires buffers.Valid() && buffers.clients == |conns| && buffers.buf == [[], [], []]
    requires Schedule(layout, streams, r) == Some(prog) && Inbounds(conns) == prog.streams
    requires forall k :: 0 <= k < |conns| ==> conns[k].outbound == init[k] + AveragePackets(layout, prog.averages)
    requires |rooms| == |conns| && forall k :: 0 <= k < |conns| ==> conns[k].room + RoundsBytes(r) == rooms[k]
    modifies buffers, conns
    ensures buffers.Valid() && buffers.clients == |conns|
    ensures ok <==>
      && AllParse(layout, prog.streams, r % LAYERS)
      && forall k :: 0 <= k < |conns| ==> conns[k].open && RoundsBytes(r + 1) <= rooms[k]
    ensures ok ==> forall k :: 0 <= k < |conns| ==> conns[k].room + RoundsBytes(r + 1) == rooms[k]
    ensures forall k :: 0 <= k < |conns| ==> rooms[k] <= conns[k].room + RoundsBytes(r + 1)
    ensures ok ==>
      && buffers.buf == [[], [], []]
      && Schedule(layout, streams, r + 1) == Some(next)
      && Inbounds(conns) == next.streams
      && forall k :: 0 <= k < |conns| ==> conns[k].outbound == init[k] + AveragePackets(layout, next.averages)
    ensures forall k :: 0 <= k < |conns| ==> conns[k].open == old(conns[k].open)
  {
    var lid := r % LAYERS;
    ghost var before := Outbounds(conns);
    ok := RunRound(conns, layout, buffers, lid, order);
    if !ok {
      return ok, prog;
    }
    ghost var avg := Mean(Contributions(layout, prog.streams, lid), ELEM[lid], |conns|);
    ghost var packet := VecPacket(layout, 'm', LayerDigit(lid), avg);
    ghost var sent := AveragePackets(layout, prog.averages);
    assert forall k :: 0 <= k < |conns| ==> conns[k].outbound == before[k] + packet;
    next := ScheduleStep(layout, streams, r, prog);
    assert AveragePackets(layout, next.averages) == sent + packet;
    forall k | 0 <= k < |conns|
      ensures conns[k].outbound == init[k] + (sent + packet)
    {
      assert before[k] == init[k] + sent;
      AppendAssoc(init[k], sent, packet);
    }
  }

  /** A round that refuses a contribution ends the schedule for good. */
  lemma RefusedRound(layout: Layout, streams: seq<seq<char>>, r: nat, n: nat, prog: Progress)
    requires |streams| > 0 && r < n && Schedule(layout, streams, r) == Some(prog)
    requires !AllParse(layout, prog.streams, r % LAYERS)
    ensures Schedule(layout, streams, n).None?
  {
    ScheduleStaysRefused(layout, streams, r + 1, n);
  }

  /** The rounds of the training phase, epoch after epoch and layer 0, 1, 2
      within an epoch (round r is layer r % 3), round r running in the
      arrival order `orders[r]`; the first failed round ends them. */
  method Rounds(conns: seq<Conn>, layout: Layout, orders: seq<seq<nat>>) returns (ok: bool)
    requires Distinct(conns) && |conns| > 0
    requires forall r :: 0 <= r < |orders| ==> IsArrivalOrder(orders[r], |conns|)
    modifies conns
    ensures ok <==>
      && Schedule(layout, old(Inbounds(conns)), |orders|).Some?
      && forall k :: 0 <= k < |conns| ==>
        (|orders| > 0 ==> old(conns[k].open)) && RoundsBytes(|orders|) <= old(conns[k].room)
    ensures ok ==> forall k :: 0 <= k < |conns| ==> conns[k].room + RoundsBytes(|orders|) == old(conns[k].room)
    ensures forall k :: 0 <= k < |conns| ==> old(conns[k].room) <= conns[k].room + RoundsBytes(|orders|)
    ensures ok ==>
      var p := Schedule(layout, old(Inbounds(conns)), |orders|);
      && p.Some?
      && Inbounds(conns) == p.value.streams
      && forall k :: 0 <= k < |conns| ==>
        conns[k].outbound == old(conns[k].outbound) + AveragePackets(layout, p.value.averages)
    ensures forall k :: 0 <= k < |conns| ==> conns[k].open == old(conns[k].open)
  {
    var buffers := new CollectionBuffers(|conns|);
    ghost var streams, init, rooms := Inbounds(conns), Outbounds(conns), Rooms(conns);
    ghost var prog := Progress([], streams);
    for r := 0 to |orders|
      invariant buffers.Valid() && buffers.clients == |conns| && buffers.buf == [[], [], []]
      invariant Schedule(layout, streams, r) == Some(prog)
      invariant Inbounds(conns) == prog.streams
      invariant forall k :: 0 <= k < |conns| ==>
        && conns[k].outbound == init[k] + AveragePackets(layout, prog.averages)
        && conns[k].room + RoundsBytes(r) == rooms[k]
        && conns[k].open == old(conns[k].open)
        && (r > 0 ==> conns[k].open)
    {
      ghost var next;
      ok, next := NextRound(conns, layout, buffers, orders[r], streams, init, rooms, r, prog);
      if !ok {
        RoundsBytesGrow(r + 1, |orders|);
        if !AllParse(layout, prog.streams, r % LAYERS) {
          RefusedRound(layout, streams, r, |orders|, prog);
        } else {
          assert exists k :: 0 <= k < |conns| && !(old(conns[k].open) && RoundsBytes(|orders|) <= rooms[k]);
        }
        return;
      }
      prog := next;
    }
    ok := true;
  }

  /** The bytes each stream still holds once its 11-byte hello is read
      (nothing, for a stream too short to hold one). */
  ghost function AfterHello(streams: seq<seq<char>>): (rs: seq<seq<char>>)
    ensures |rs| == |streams|
    ensures forall k :: 0 <= k < |rs| && |streams[k]| >= HDR_BASE ==> rs[k] == streams[k][HDR_BASE..]
  {
    seq(|streams|, k requires 0 <= k < |streams| => if |streams[k]| < HDR_BASE then [] else streams[k][HDR_BASE..])
  }

  /** The bytes each connection has delivered so far. */
  ghost function Outbounds(cs: seq<Conn>): (os: seq<seq<char>>)
    reads cs
    ensures |os| == |cs| && forall k :: 0 <= k < |cs| ==> os[k] == cs[k].outbound
  {
    seq(|cs|, k requires 0 <= k < |cs| reads cs => cs[k].outbound)
  }

  /** The bytes each connection can still send before `send` fails. */
  ghost function Rooms(cs: seq<Conn>): (rs: seq<nat>)
    reads cs
    ensures |rs| == |cs| && forall k :: 0 <= k < |cs| ==> rs[k] == cs[k].room
  {
    seq(|cs|, k requires 0 <= k < |cs| reads cs => cs[k].room)
  }

  /** `s` ends with the bytes `t`. */
  predicate EndsWith(s: seq<char>, t: seq<char>)
  {
    |t| <= |s| && s[|s| - |t|..] == t
  }

  /** How the server process ends: `return 0` after step 6, `_Exit(EXIT_FAILURE)`
      in broadcast_abort, or an exception escaping `main`. */
  datatype ExitStatus = ExitSuccess | ExitFailure | Terminated

  /** The server process: its configuration and the globals its threads
      share. The per-layer collection buffers live in a `CollectionBuffers`
      created for the training phase. */
  class Coordinator {
    /** N_CLIENTS and N_EPOCHS, as read from standard input. */
    const nClients: int
    const nEpochs: int
    const layout: Layout
    /** `sockets`: the accepted connections, in acceptance order. */
    var sockets: seq<Conn>
    /** `abort_all`: set by a worker whose step failed. */
    var abortAll: bool

    ghost predicate Valid()
      reads this
    {
      Distinct(sockets)
    }

    constructor (nClients: int, nEpochs: int, layout: Layout)
      ensures this.nClients == nClients && this.nEpochs == nEpochs && this.layout == layout
      ensures sockets == [] && !abortAll && Valid()
    {
      this.nClients, this.nEpochs, this.layout := nClients, nEpochs, layout;
      sockets, abortAll := [], false;
    }

    /** Step 3 of `main`: greet the N_CLIENTS connections in acceptance
        order and register them. The source registers each connection right
        after its greeting; here they are registered together once all are
        greeted, which no one can tell apart, since a failed greeting ends
        the process. */
    method AcceptAll(conns: seq<Conn>) returns (ok: bool)
      requires sockets == [] && Distinct(conns) && |conns| == Count(nClients)
      modifies this`sockets, conns
      ensures ok <==> forall k :: 0 <= k < |conns| ==>
        HandshakeOk(old(conns[k].inbound)) && old(conns[k].open && |IdPacket(k)| <= conns[k].room)
      ensures ok ==> sockets == conns && Valid()
      ensures ok ==> forall k :: 0 <= k < |conns| ==>
        && conns[k].inbound == old(conns[k].inbound)[HDR_BASE..]
        && conns[k].outbound == old(conns[k].outbound) + IdPacket(k)
        && conns[k].room == old(conns[k].room) - |IdPacket(k)|
      ensures forall k :: 0 <= k < |conns| ==> conns[k].open == old(conns[k].open)
    {
      ok := Handshake(conns);
      if ok {
        sockets := conns;
      }
    }

    /** Step 5 of `main`: the workers' rounds. The first failed step sets
        abort_all; every later step of the other workers would then wait for
        data that never comes, so nothing more is sent. */
    method Train(orders: seq<seq<nat>>)
      requires Valid() && !abortAll && |sockets| > 0
      requires |orders| == LAYERS * Count(nEpochs)
      requires forall r :: 0 <= r < |orders| ==> IsArrivalOrder(orders[r], |sockets|)
      modifies this`abortAll, sockets
      ensures !abortAll <==>
        && Schedule(layout, old(Inbounds(sockets)), |orders|).Some?
        && forall k :: 0 <= k < |sockets| ==>
          (|orders| > 0 ==> old(sockets[k].open)) && RoundsBytes(|orders|) <= old(sockets[k].room)
      ensures !abortAll ==> forall k :: 0 <= k < |sockets| ==>
        sockets[k].room + RoundsBytes(|orders|) == old(sockets[k].room)
      ensures forall k :: 0 <= k < |sockets| ==> old(sockets[k].room) <= sockets[k].room + RoundsBytes(|orders|)
      ensures !abortAll ==>
        var p := Schedule(layout, old(Inbounds(sockets)), |orders|);
        && p.Some?
        && Inbounds(sockets) == p.value.streams
        && forall k :: 0 <= k < |sockets| ==>
          sockets[k].outbound == old(sockets[k].outbound) + AveragePackets(layout, p.value.averages)
      ensures forall k :: 0 <= k < |sockets| ==> sockets[k].open == old(sockets[k].open)
    {
      var ok := Rounds(sockets, layout, orders);
      if !ok {
        abortAll := true;
      }
    }

    /** broadcast_abort when abort_all is set, step 6 of `main` otherwise:
        'z' or 'x' to every client, closing each connection after its
        packet. */
    method Finish() returns (status: ExitStatus)
      requires Valid()
      modifies sockets
      ensures status != Terminated <==> forall k :: 0 <= k < |sockets| ==> old(sockets[k].open && HDR_BASE <= sockets[k].room)
      ensures status == ExitSuccess <==> status != Terminated && !abortAll
      ensures status != Terminated ==> forall k :: 0 <= k < |sockets| ==> !sockets[k].open
      ensures status != Terminated ==> forall k :: 0 <= k < |sockets| ==>
        sockets[k].outbound == old(sockets[k].outbound) + RawPacket(if abortAll then 'z' else 'x', [])
      ensures forall k :: 0 <= k < |sockets| ==> sockets[k].inbound == old(sockets[k].inbound)
    {
      var ok := Farewell(sockets, if abortAll then 'z' else 'x');
      status := if !ok then Terminated else if abortAll then ExitFailure else ExitSuccess;
    }

    /** Steps 3 and 4 of `main`: greet and register every connection, then
        send each client its setup packets. */
    method Prepare(conns: seq<Conn>) returns (ok: bool)
      requires sockets == [] && Distinct(conns) && |conns| == Count(nClients)
      modifies this`sockets, conns
      ensures ok <==> forall k :: 0 <= k < |conns| ==>
        HandshakeOk(old(conns[k].inbound))
        && old(conns[k].open && |IdPacket(k)| + |SetupPackets(nEpochs, k)| <= conns[k].room)
      ensures ok ==> sockets == conns && Valid()
      ensures ok ==>
        && (forall k :: 0 <= k < |conns| ==> HandshakeOk(old(conns[k].inbound)))
        && Inbounds(conns) == AfterHello(old(Inbounds(conns)))
      ensures ok ==> forall k :: 0 <= k < |conns| ==>
        && conns[k].outbound == old(conns[k].outbound) + IdPacket(k) + SetupPackets(nEpochs, k)
        && conns[k].room == old(conns[k].room) - (|IdPacket(k)| + |SetupPackets(nEpochs, k)|)
      ensures forall k :: 0 <= k < |conns| ==> conns[k].open == old(conns[k].open)
    {
      ok := AcceptAll(conns);
      if !ok {
        return;
      }
      assert sockets == conns && Valid();
      ghost var greeted, o1 := Inbounds(conns), Outbounds(conns);
      assert greeted == AfterHello(old(Inbounds(conns)));
      var epochs := IntToString(nEpochs);
      ok := SetupAll(conns, epochs);
      if !ok {
        return;
      }
      assert Inbounds(conns) == greeted;
      forall k | 0 <= k < |conns|
        ensures conns[k].outbound == old(conns[k].outbound) + IdPacket(k) + SetupPackets(nEpochs, k)
      {
        assert o1[k] == old(conns[k].outbound) + IdPacket(k);
      }
    }

    /** Steps 5 and 6 of `main` on the registered connections `conns`: the
        workers' rounds, then 'x' to every client, or 'z' once a round has
        failed. */
    method Serve(conns: seq<Conn>, orders: seq<seq<nat>>) returns (status: ExitStatus)
      requires Valid() && !abortAll && sockets == conns
      requires |orders| == LAYERS * Count(nEpochs)
      requires forall r :: 0 <= r < |orders| ==> IsArrivalOrder(orders[r], |conns|)
      modifies this`abortAll, conns
      ensures sockets == conns
      ensures status == ExitSuccess <==>
        && (|conns| > 0 ==> Schedule(layout, old(Inbounds(conns)), |orders|).Some?)
        && forall k :: 0 <= k < |conns| ==>
          old(conns[k].open && RoundsBytes(|orders|) + HDR_BASE <= conns[k].room)
      ensures status == ExitSuccess ==> |conns| > 0 ==>
        var p := Schedule(layout, old(Inbounds(conns)), |orders|);
        && p.Some?
        && forall k :: 0 <= k < |conns| ==>
          conns[k].outbound == old(conns[k].outbound) + AveragePackets(layout, p.value.averages) + RawPacket('x', [])
      ensures status == ExitFailure ==> forall k :: 0 <= k < |conns| ==>
        !conns[k].open && EndsWith(conns[k].outbound, RawPacket('z', []))
      ensures (forall k :: 0 <= k < |conns| ==> old(conns[k].open && RoundsBytes(|orders|) + HDR_BASE <= conns[k].room)) ==>
        (status == ExitFailure <==> |conns| > 0 && Schedule(layout, old(Inbounds(conns)), |orders|).None?)
    {
      ghost var o1 := Outbounds(conns);
      if |conns| > 0 {
        Train(orders);
      }
      ghost var o2 := Outbounds(conns);
      status := Finish();
      if status == ExitSuccess && |conns| > 0 {
        var p := Schedule(layout, old(Inbounds(conns)), |orders|).value;
        forall k | 0 <= k < |conns|
          ensures conns[k].outbound == old(conns[k].outbound) + AveragePackets(layout, p.averages) + RawPacket('x', [])
        {
          assert o2[k] == o1[k] + AveragePackets(layout, p.averages);
        }
      }
    }

    /** Steps 3 to 6 of `main` on the accepted connections `conns`, the
        workers' rounds running in the arrival orders `orders`. A run that
        ends normally has sent every client its id, its setup, the average
        of every round and the final 'x', in that order. */
    method Run(conns: seq<Conn>, orders: seq<seq<nat>>) returns (status: ExitStatus)
      requires sockets == [] && !abortAll && Distinct(conns) && |conns| == Count(nClients)
      requires |orders| == LAYERS * Count(nEpochs)
      requires forall r :: 0 <= r < |orders| ==> IsArrivalOrder(orders[r], |conns|)
      modifies this`sockets, this`abortAll, conns
      ensures status == ExitSuccess <==>
        && (forall k :: 0 <= k < |conns| ==> HandshakeOk(old(conns[k].inbound)))
        && (|conns| > 0 ==> Schedule(layout, AfterHello(old(Inbounds(conns))), |orders|).Some?)
        && forall k :: 0 <= k < |conns| ==> old(conns[k].open
          && |IdPacket(k)| + |SetupPackets(nEpochs, k)| + RoundsBytes(|orders|) + HDR_BASE <= conns[k].room)
      ensures status == ExitSuccess && |conns| > 0 ==>
        var p := Schedule(layout, AfterHello(old(Inbounds(conns))), |orders|).value;
        forall k :: 0 <= k < |conns| ==>
          conns[k].outbound == old(conns[k].outbound) + IdPacket(k) + SetupPackets(nEpochs, k)
            + AveragePackets(layout, p.averages) + RawPacket('x', [])
      ensures status == ExitFailure ==> forall k :: 0 <= k < |conns| ==>
        !conns[k].open && EndsWith(conns[k].outbound, RawPacket('z', []))
      ensures
        && (forall k :: 0 <= k < |conns| ==> HandshakeOk(old(conns[k].inbound)))
        && (forall k :: 0 <= k < |conns| ==> old(conns[k].open
          && |IdPacket(k)| + |SetupPackets(nEpochs, k)| + RoundsBytes(|orders|) + HDR_BASE <= conns[k].room))
        ==> (status == ExitFailure <==> |conns| > 0 && Schedule(layout, AfterHello(old(Inbounds(conns))), |orders|).None?)
    {
      var ok := Prepare(conns);
      if !ok {
        return Terminated;
      }
      ghost var greeted, o1 := Inbounds(conns), Outbounds(conns);
      assert greeted == AfterHello(old(Inbounds(conns)));
      status := Serve(conns, orders);
      if status == ExitSuccess && |conns| > 0 {
        var p := Schedule(layout, greeted, |orders|).value;
        forall k | 0 <= k < |conns|
          ensures conns[k].outbound == old(conns[k].outbound) + IdPacket(k) + SetupPackets(nEpochs, k)
            + AveragePackets(layout, p.averages) + RawPacket('x', [])
        {
          assert o1[k] == old(conns[k].outbound) + IdPacket(k) + SetupPackets(nEpochs, k);
          assert conns[k].outbound == o1[k] + AveragePackets(layout, p.averages) + RawPacket('x', []);
        }
      }
    }
  }
}
